=== FILE: README.md ===
# TraLines pipeline core in Dafny

TraLines turns a scanned PDF into a bilingual PDF in three resumable stages:

1. **Extraction** (`modules/extract.py`) runs OCR on each PDF page. For each page of the OCR response whose save succeeds, it appends one record to `ocr_response.json`, whose `current_page` cursor says where a later run resumes.
2. **Translation** (`modules/translate.py`, `process_and_translate`) walks the recognised pages from the checkpoint `last_processed_page + 1`. It does the following:
   - a blank page only advances the checkpoint;
   - every other page is classified as "split" or "whole";
   - a "split" page appends one unit per sentence, a "whole" page appends one unit for the whole page;
   - it commits each page by writing `translated_sentences.json`;
   - on a failure inside the guarded block it writes a rolled-back checkpoint and re-raises.
3. **Assembly** (`modules/merge.py`, `create_pdf`) turns the stored units into the sequence of paragraphs and spacers handed to the PDF renderer. HTML tags are stripped and blank lines dropped.

The command line checks its language codes with `validate_language_code` (`main.py`).

The model is functional:

- Each persisted file is a value `JsonFile<T>`: `Missing`, `Unreadable`, or `Holds(state)`. Every write replaces that value.
- Each stage is a pure function from the file it finds, and from what the outside services answer, to the file it leaves behind.
- The services are the OCR service, the page classifier, the sentence splitter and the translator. They appear as oracles: values or functions returning a success or a failure.
- Python's string operations are modelled as Python defines them:
  - `str.strip` uses the full `str.isspace` set;
  - `str.split('\n')`;
  - `pages[i]` accepts negative indices;
  - `==` between the classifier's bool and a string label is always false.

Modules:

- `Outcomes` holds `Option`, `Result`, `JsonFile` and `FlatMap`.
- `PyText` holds the string operations.
- `Extraction` and `ExtractionProperties` cover `modules/extract.py`.
- `Translation` and `TranslationProperties` cover `modules/translate.py`.
- `Assembly` covers `modules/merge.py`.
- `LanguageCode` covers `main.py`.

Two behaviours of the translation engine are modelled as the code has them and proved as properties:

- **The classifier never matches.** `llm_text_classification` returns a bool, which never equals the labels "split" or "whole". With the shipped classifier every non-blank page is therefore committed with no unit, and a run never adds a unit (`ShippedRunAppendsNothing`).
- **A failed page's units are kept.** The rollback moves the checkpoint back to the previous page but keeps the units already appended for the failing page. If a retry of that page commits, and its services classify and split the page the same way and translate the kept sentences to the same text, it appends them a second time (`RetriedPageDuplicatesUnits`). A retry with the same services fails again at the same sentence, so a committing retry always sees different service answers.

The extraction cursor has a similar quirk. It counts records, not PDF pages. When page 0 could not be encoded and every other page is recognised and saved, the next run therefore resumes one page early and records the last page twice (`SkippedPageShiftsResume`).

## Model

| member | source | states |
|---|---|---|
| PyText.Strip | modules/translate.py:121 | `strip()` yields a slice of the text with only whitespace before and after it; that slice is "" exactly when the text is all whitespace, and otherwise has no whitespace at either end |
| PyText.StripIsUnique | modules/translate.py:121 | any non-empty slice without whitespace at its ends and flanked only by whitespace is the strip, so `strip()` is fully determined |
| PyText.StripIdempotent | modules/translate.py:43 | stripping a stripped text changes nothing |
| PyText.TrimmedIsFixed | modules/translate.py:43 | a non-empty text with no whitespace at either end is its own strip |
| PyText.SplitLines | modules/merge.py:55 | `split('\n')` yields at least one piece, no piece holds a newline, and joining the pieces with newlines gives the text back |
| PyText.SplitJoin | modules/merge.py:55 | splitting a newline-joined list of newline-free lines gives the list back |
| PyText.SplitNoNewline | modules/merge.py:55 | a text without newline splits into itself alone |
| LanguageCode.Validate | main.py:12-22 | a code is accepted exactly when it is two upper-case letters, and is then returned unchanged; otherwise the first failing check (length, then letters, then case) decides the error |
| LanguageCode.OneCodePerCheck | main.py:16-22 | "ENG" fails the length check, "E1" the letter check, "it" the case check, and "IT" is accepted |
| Extraction.SaveJsonResponse | modules/extract.py:21-36 | the file changes exactly when it is readable or missing and the write succeeds; it then holds the earlier records plus one record numbered `page + 1` at the end, and its cursor equals the record count |
| Extraction.SavedRecords | modules/extract.py:75-76 | the records one OCR response adds are at most one per OCR page, all numbered with the same PDF page plus one; when every save succeeds they are one record per OCR page carrying its markdown, in order, and when none does there are none |
| Extraction.SaveAll | modules/extract.py:75-76 | saving an OCR response appends its successfully written records, in order, to the earlier ones, keeping the cursor equal to the record count |
| Extraction.StartPage | modules/extract.py:52-56 | a run resumes at the stored cursor, which for a consistent store is the number of records, and at page 0 without a file |
| Extraction.ExtractLoop | modules/extract.py:58-79 | the page loop only appends records, keeps the cursor consistent, numbers new records within the pages it visits, and leaves an unreadable file alone (which records it adds: ExtractionProperties.LoopAppendsExpected) |
| Extraction.ExtractTextFromPdf | modules/extract.py:50-81 | a run leaves an unreadable file or one whose cursor is past the last page unchanged, only appends records, and keeps a consistent cursor consistent |
| ExtractionProperties.ExpectedRecords | modules/extract.py:58-76 | a failure-free run from page `p` should add one record per remaining page, numbered `q + 1` with page `q`'s markdown |
| ExtractionProperties.LoopWithoutFailures | modules/extract.py:58-76 | without failures the loop appends exactly those records and leaves a consistent cursor |
| ExtractionProperties.ExpectedFromFailureFree | modules/extract.py:58-79 | without failures, the records the loop appends for arbitrary outcomes (`ExpectedFrom`) are one record per remaining page, numbered `q + 1` with page `q`'s markdown |
| ExtractionProperties.LoopAppendsExpected | modules/extract.py:58-79 | for any page outcomes, the loop appends the saved records of each recognised page from the start page on, nothing for a page whose encoding failed, and nothing from the first OCR failure on |
| ExtractionProperties.ResumeCompletesStore | modules/extract.py:52-76 | a failure-free resumed run (every remaining page encoded, one OCR page for each, every save succeeding) starts at the cursor, appends each missing page once, leaves the cursor at the page count, and a further run changes nothing |
| ExtractionProperties.FailedPageEffects | modules/extract.py:62-79 | a page whose image cannot be encoded adds nothing and the loop goes on; an OCR failure stops the loop with the file as it is |
| ExtractionProperties.SkippedPageShiftsResume | modules/extract.py:52-64 | after a first run that skipped page 0, with every other page recognised as one OCR page and saved, the cursor is one short of the page count, and the next run records the last page a second time |
| Translation.ClassifierInput | modules/translate.py:50 | pages up to 2000 characters go to the classifier unchanged; longer ones as their first 2000 characters followed by "... (truncated)" |
| Translation.ShippedClassify | modules/translate.py:49-76 | the shipped classifier fails exactly when the model call fails, otherwise answers with a bool, and answers the same for pages whose truncated form is the same |
| Translation.BranchOf | modules/translate.py:130-145 | the "split" arm runs exactly for the string "split", the "whole" arm exactly for "whole", and a bool selects neither |
| Translation.Kept | modules/translate.py:43 | a blank sentence is dropped; any other is kept as its stripped text, which is trimmed |
| Translation.ExtractSentences | modules/translate.py:41-43 | the extracted sentences are no more than the splitter's, and each is non-empty with no whitespace at either end |
| Translation.TranslateEach | modules/translate.py:131-138 | the sentence loop appends one "split" unit per sentence, holding the sentence and its translation, in order, up to the first failing translation, whose error it reports |
| Translation.TryPage | modules/translate.py:129-146 | an unmatched classification appends nothing and succeeds; a "whole" page succeeds exactly when its translation succeeds, appending the page with its translation, and otherwise fails with that error; a "split" page whose sentence splitting fails appends nothing and fails, and otherwise is the sentence loop over its extracted sentences; every unit carries the branch's content type |
| Translation.ProcessPage | modules/translate.py:118-155 | a blank page is committed unchanged but for the checkpoint; a committed page sets the checkpoint to the page and only appends units; a rolled-back page writes the checkpoint of the page before and keeps the units appended; nothing is written exactly when a non-blank page's classification fails |
| Translation.PageAt | modules/translate.py:118 | `pages[i]` is the i-th page for indices in range, the `(len + i)`-th for a negative index down to `-len`, and fails exactly outside `-len .. len-1` |
| Translation.Loop | modules/translate.py:117-155 | the page loop completes or fails at a page it reached; the file it leaves is untouched or holds the units it started with plus more, with a checkpoint between the page before the start and the last page (which units it adds: TranslationProperties.LoopVisitsEveryPage) |
| Translation.LoadCheckpoint | modules/translate.py:103-107 | a missing state file starts from no units and checkpoint -1, a readable one from its content, and an unreadable one fails |
| Translation.ProcessAndTranslate | modules/translate.py:101-115 | a run that fails to load or finds nothing to do leaves the state file unchanged |
| TranslationProperties.LoopCheckpoint | modules/translate.py:117-155 | from a synchronised state, the loop leaves the resume point past the last page on completion and at the failing page on failure, and only appends units |
| TranslationProperties.RunCheckpoint | modules/translate.py:101-155 | a run starts at `last_processed_page + 1`, does nothing when that is past the last page, otherwise leaves the resume point at the page count or at the failing page, never sets the checkpoint past the last page, and only appends units |
| TranslationProperties.CompletedRunIsIdempotent | modules/translate.py:113-115 | rerunning after a completed run is the "already processed" no-op, whatever the services answer |
| TranslationProperties.ResumeStartsAtFailedPage | modules/translate.py:150-155 | after a failure the next run restarts exactly at the failing page |
| TranslationProperties.FreshRunStartsAtFirstPage | modules/translate.py:103-110 | without a state file a run starts at page 0 with no units |
| TranslationProperties.SplitPageFidelity | modules/translate.py:130-138 | a "split" page whose sentences all translate is committed with one "split" unit per extracted sentence, in order, each holding the sentence and its translation |
| TranslationProperties.WholePageFidelity | modules/translate.py:139-149 | a "whole" page whose translation succeeds is committed with one "whole" unit holding the page text and its translation |
| TranslationProperties.AbortedAttempt | modules/translate.py:150-154 | a rollback happens only on a non-blank, classified page whose guarded block raised, and the written state keeps that block's units with checkpoint `page - 1` |
| TranslationProperties.RaisingAttemptRollsBack | modules/translate.py:127-155 | conversely, on a non-blank classified page whose guarded block raised, the page aborts with the error raised and writes the state holding that block's units with checkpoint `page - 1` |
| TranslationProperties.SplitTranslationFailureRollsBack | modules/translate.py:130-155 | a non-blank page classified "split" whose segmentation succeeds and one of whose extracted sentences fails to translate aborts with a translation error and writes a state with checkpoint `page - 1` |
| TranslationProperties.StepUnits | modules/translate.py:121-155 | one page adds nothing to the units on a blank page or a failed classification and otherwise adds the units its guarded block appended, whether it commits or rolls back |
| TranslationProperties.LoopVisitsEveryPage | modules/translate.py:117-155 | from a synchronised state the loop visits every page from its start once, in order: on completion the file holds the starting units followed by each page's units; on a failure at page `q` it holds those of the pages up to and including `q` |
| TranslationProperties.RunVisitsEveryPage | modules/translate.py:101-155 | a whole run from a checkpoint of at least -1 (so including a fresh state) adds, after the stored units, the units of each page from `last_processed_page + 1` once and in order, up to the last page or up to and including the failing page |
| TranslationProperties.TranslatedUnits | modules/translate.py:132-138 | the units of the sentence loop are the split units of the sentences it got through |
| TranslationProperties.RollbackKeepsPartialUnits | modules/translate.py:150-154 | a rolled-back state has checkpoint `page - 1`, keeps all earlier units, and its extra units are exactly those of the sentences translated before the first failing one |
| TranslationProperties.RetriedPageDuplicatesUnits | modules/translate.py:130-155 | when the rolled-back page is retried with services that classify and split it the same way and translate the kept sentences to the same text, and the retry commits, the units kept from the failed attempt appear twice in a row |
| TranslationProperties.ShippedClassifierReturnsBool | modules/translate.py:75-76 | the shipped classifier always answers with a bool, which selects neither branch |
| TranslationProperties.BoolClassifierPage | modules/translate.py:127-149 | with a bool classifier a page is either committed with no new unit or fails classification without writing |
| TranslationProperties.BoolClassifierLoop | modules/translate.py:117-149 | with a bool classifier the page loop never changes the stored units |
| TranslationProperties.ShippedRunAppendsNothing | modules/translate.py:49-149 | a run with the shipped classifier leaves the stored units as they were, whatever the language model answers |
| TranslationProperties.ClassifierSeesOnlyPrefix | modules/translate.py:50 | two long pages with the same first 2000 characters send the classifier the same text |
| TranslationProperties.ExtractSentencesAppend | modules/translate.py:41-43 | sentence extraction keeps the splitter's order: it distributes over concatenation |
| TranslationProperties.ExtractSentencesKeepsCleanInput | modules/translate.py:41-43 | sentences already non-empty and trimmed come through unchanged |
| Assembly.CloseAt | modules/merge.py:11 | a `<` closes at the first `>` after it when no newline comes first, and closes nowhere exactly when its line holds no `>` |
| Assembly.StripHtmlTags | modules/merge.py:9-12 | the result is never longer than the text, and a text without `<` comes back unchanged |
| Assembly.StripKeepsPlainPrefix | modules/merge.py:9-12 | text before the first `<` is copied unchanged and stripping goes on after it |
| Assembly.StripRemovesTag | modules/merge.py:9-12 | a tag `<t>` whose body holds no `>` and no newline is removed whole, and stripping goes on right after its `>` |
| Assembly.StripKeepsUnclosed | modules/merge.py:9-12 | a `<` with no `>` later on its line is kept, and stripping goes on after it |
| Assembly.StripOverNewline | modules/merge.py:9-12 | no tag spans a line break: the text's lines are stripped independently and the line break is kept |
| Assembly.StripLeavesNoTag | modules/merge.py:9-12 | no `<` in the result is followed by a `>` on its line |
| Assembly.TagFreeIsFixpoint | modules/merge.py:9-12 | a text with no tag to strip comes back unchanged |
| Assembly.StripIsIdempotent | modules/merge.py:9-12 | stripping tags twice is stripping once |
| Assembly.StripKeepsNewlines | modules/merge.py:9-12 | stripping tags keeps every newline, so the lines of the text survive |
| Assembly.NonBlankLines | modules/merge.py:56-59 | only non-blank lines of the text are kept; a single line is kept exactly when it is not blank |
| Assembly.NonBlankLinesAppend | modules/merge.py:56-59 | filtering goes line by line: the kept lines of `a + b` are those of `a` then those of `b`, so order and repeated lines are preserved |
| Assembly.NonBlankLinesKeepsText | modules/merge.py:56-59 | every non-blank line is kept |
| Assembly.Paragraphs | modules/merge.py:52-59 | every paragraph of a text is a non-blank line without a line break |
| Assembly.ParagraphsOfLine | modules/merge.py:52-59 | a text without a line break gives its tag-stripped text as its one paragraph, or none when that is blank |
| Assembly.ParagraphsLineByLine | modules/merge.py:52-59 | the paragraphs of `a + "\n" + b` are those of line `a` followed by those of `b`: paragraphs are the text's stripped non-blank lines, in order |
| Assembly.PlainLineIsOneParagraph | modules/merge.py:52-59 | a non-blank single line without markup becomes exactly one paragraph, unchanged |
| Assembly.ShowsTranslation | modules/merge.py:49-61 | the translation is shown exactly when `content_type` is missing or equals "split" |
| Assembly.Translations | modules/merge.py:48-70 | a unit shows no translated line when its type is present and not "split" or its translation is missing, otherwise the paragraphs of its translation; each is a non-blank line |
| Assembly.RenderUnit | modules/merge.py:47-72 | a unit's items start with its original paragraphs in order as normal paragraphs and end with its one spacer; without a shown translation there is nothing else |
| Assembly.Render | modules/merge.py:46-72 | the story opens with the first unit's items, ends with a spacer when there is a unit, holds at least one item per unit, and is empty for no units |
| Assembly.Block | modules/merge.py:55-72 | a unit's block holds its original lines as normal paragraphs, then its translated lines, then one spacer |
| Assembly.BlockOrder | modules/merge.py:46-72 | within a unit, original lines come before translated lines, which come before the spacer, and the spacer is the block's only one |
| Assembly.UnitLines | modules/merge.py:55-70 | every paragraph a unit contributes is a non-blank line without a line break |
| Assembly.RenderAppend | modules/merge.py:46-72 | the story of a list of units is the stories of its parts in order: units appear in input order |
| Assembly.SpacerPerUnit | modules/merge.py:46-72 | the story holds exactly one spacer per unit |
| Assembly.UnitHasOneSpacer | modules/merge.py:72 | each unit contributes one spacer |
| Assembly.MissingTranslationRendersNothing | modules/merge.py:48 | a unit without a translation renders like one with an empty translation: its original lines and a spacer |
| Assembly.ContentTypeSelectsTranslation | modules/merge.py:49-70 | a "whole" unit renders only its original lines; a "split" unit, or one without a content type, renders its translated lines after them |

## Left out

- The Mistral OCR and chat clients, the spaCy sentence splitter, PyMuPDF and PIL page rendering, and base64 encoding are external calls. They are oracles: the classifier, splitter and translator are functions from text to a result, and extraction receives each page's outcome as data. The prompt texts, the model name and the API key are not modelled, and the source and target languages are folded into the translation oracle.
- JSON parsing and file I/O are out. A state file that does not parse, or lacks the expected keys, is `Unreadable`.
- Translation.Loop: writing the state file is assumed to succeed. Two write failures in `process_and_translate` are not modelled. A failed commit write (translate.py:148-149) sits inside the `try`, so it takes the rollback path: the checkpoint is set to `page - 1`, the file is written a second time, and the error is raised again. And `open(..., 'w')` empties the file before `json.dump` writes it, so a write that fails partway leaves an empty or truncated file.
- Extraction.SaveJsonResponse: a write is modelled as all or nothing. A write that fails halfway through and leaves a truncated file is not modelled.
- Extraction.ExtractTextFromPdf: the cursor is a natural number, so a state file holding a negative `current_page` is not modelled.
- LanguageCode.Validate: `isalpha` and `isupper` are modelled on ASCII letters only. Python also accepts, for example, two upper-case accented letters such as "ÉÉ", which the model rejects. The `isinstance` check is omitted, because argparse always passes a string.
- Translation.ShippedClassify: `str.lower` is modelled on ASCII letters only. Either way the function returns a bool, so the branch choice does not depend on this.
- ReportLab styles, `Paragraph`, `Spacer` sizes and `doc.build` are out. The model stops at the sequence of story items.
- tqdm progress bars, colorama output, console messages, `main()` argument parsing and directory handling are out: they are UI and plumbing.
- The root-level `extract.py`, `translate.py` and `merge.py` scripts are out. They are older copies of the `modules/` code, with side effects at import.

=== FILE: assembly.dfy ===
/** The assembler (modules/merge.py): turns the stored translation units
    into the sequence of story items handed to the PDF renderer. Styles,
    fonts and page layout belong to the renderer and are not modelled. */
module Assembly {
  import opened Outcomes
  import opened PyText
  import opened Translation

  // ------------------------------------------------------- tag stripping

  /** No '>' before the end of the first line of `t`. */
  predicate LineHasNoGt(t: string) {
    t == [] || t[0] == '\n' || (t[0] != '>' && LineHasNoGt(t[1..]))
  }

  /** Where the lazy pattern `<.*?>` opened just before position `k` closes:
      the first '>' at or after `k`, provided no newline comes first
      (the regex dot does not match a newline). */
  function CloseAt(s: string, k: nat): (r: Option<nat>)
    decreases |s| - k
    ensures r.Some? ==> k <= r.value < |s| && s[r.value] == '>'
    ensures r.Some? ==> forall m :: k <= m < r.value ==> s[m] != '>' && s[m] != '\n'
    ensures r.None? <==> k >= |s| || LineHasNoGt(s[k..])
  {
    if k >= |s| || s[k] == '\n' then None
    else if s[k] == '>' then Some(k)
    else
      assert s[k..][1..] == s[k + 1..];
      CloseAt(s, k + 1)
  }

  /** `strip_html_tags`: `re.sub('<.*?>', '', text)`. Scanning left to
      right, a '<' that closes on its line is removed with everything up
      to the first '>'; any other character is kept. */
  function StripHtmlTags(s: string): (r: string)
    decreases |s|
    ensures |r| <= |s|
    ensures '<' !in s ==> r == s
  {
    if s == [] then []
    else if s[0] == '<' && CloseAt(s, 1).Some? then StripHtmlTags(s[CloseAt(s, 1).value + 1..])
    else [s[0]] + StripHtmlTags(s[1..])
  }

  /** Text before the first '<' is copied unchanged. */
  lemma {:induction false} StripKeepsPlainPrefix(a: string, b: string)
    requires '<' !in a
    ensures StripHtmlTags(a + b) == a + StripHtmlTags(b)
    decreases |a|
  {
    if a == [] {
      assert a + b == b;
    } else {
      assert (a + b)[0] == a[0];
      assert (a + b)[1..] == a[1..] + b;
      StripKeepsPlainPrefix(a[1..], b);
      AppendAssoc([a[0]], a[1..], StripHtmlTags(b));
      assert [a[0]] + a[1..] == a;
    }
  }

  /** Scanning from `k`, the first '>' reached before any newline is where
      the tag closes. */
  lemma {:induction false} CloseAtFirstGt(s: string, k: nat, j: nat)
    requires k <= j < |s| && s[j] == '>'
    requires forall m :: k <= m < j ==> s[m] != '>' && s[m] != '\n'
    ensures CloseAt(s, k) == Some(j)
    decreases j - k
  {
    if k < j {
      CloseAtFirstGt(s, k + 1, j);
    }
  }

  /** A tag `<t>` whose body holds no '>' and no newline is removed whole,
      and matching goes on right after it. */
  lemma StripRemovesTag(t: string, b: string)
    requires '>' !in t && '\n' !in t
    ensures StripHtmlTags("<" + t + ">" + b) == StripHtmlTags(b)
  {
    var s := "<" + t + ">" + b;
    var j := |t| + 1;
    assert s[j] == '>';
    forall m | 1 <= m < j
      ensures s[m] != '>' && s[m] != '\n'
    {
      assert s[m] == t[m - 1];
    }
    CloseAtFirstGt(s, 1, j);
    assert s[j + 1..] == b;
  }

  /** A '<' with no '>' later on its line is not a tag: it is kept. */
  lemma StripKeepsUnclosed(b: string)
    requires LineHasNoGt(b)
    ensures StripHtmlTags("<" + b) == "<" + StripHtmlTags(b)
  {
    var s := "<" + b;
    assert s[1..] == b;
  }

  /** No '<' is followed by a '>' on its own line: the pattern has nothing
      left to match. */
  predicate TagFree(t: string) {
    t == [] || ((t[0] == '<' ==> LineHasNoGt(t[1..])) && TagFree(t[1..]))
  }

  /** Stripping never removes a newline nor adds a '>', so a first line
      without '>' stays so. */
  lemma {:induction false} StripKeepsLineHasNoGt(t: string)
    requires LineHasNoGt(t)
    ensures LineHasNoGt(StripHtmlTags(t))
    decreases |t|
  {
    if t != [] && t[0] != '\n' {
      assert t[0] != '<' || CloseAt(t, 1).None?;
      var rest := StripHtmlTags(t[1..]);
      StripKeepsLineHasNoGt(t[1..]);
      assert ([t[0]] + rest)[1..] == rest;
    } else if t != [] {
      assert StripHtmlTags(t) == [t[0]] + StripHtmlTags(t[1..]);
    }
  }

  /** The output of `strip_html_tags` contains no tag left to strip. */
  lemma {:induction false} StripLeavesNoTag(s: string)
    ensures TagFree(StripHtmlTags(s))
    decreases |s|
  {
    if s == [] {
    } else if s[0] == '<' && CloseAt(s, 1).Some? {
      StripLeavesNoTag(s[CloseAt(s, 1).value + 1..]);
    } else {
      var rest := StripHtmlTags(s[1..]);
      StripLeavesNoTag(s[1..]);
      if s[0] == '<' {
        StripKeepsLineHasNoGt(s[1..]);
      }
      assert ([s[0]] + rest)[1..] == rest;
    }
  }

  /** Text without a tag to strip comes through unchanged. */
  lemma {:induction false} TagFreeIsFixpoint(t: string)
    requires TagFree(t)
    ensures StripHtmlTags(t) == t
    decreases |t|
  {
    if t != [] {
      assert t[0] != '<' || CloseAt(t, 1).None?;
      TagFreeIsFixpoint(t[1..]);
      assert [t[0]] + t[1..] == t;
    }
  }

  /** Stripping twice is stripping once. */
  lemma StripIsIdempotent(s: string)
    ensures StripHtmlTags(StripHtmlTags(s)) == StripHtmlTags(s)
  {
    StripLeavesNoTag(s);
    TagFreeIsFixpoint(StripHtmlTags(s));
  }

  /** The number of newlines in a text. */
  function Newlines(s: string): nat {
    if s == [] then 0 else (if s[0] == '\n' then 1 else 0) + Newlines(s[1..])
  }

  /** No removed span holds a newline, so stripping keeps every line break. */
  lemma {:induction false} StripKeepsNewlines(s: string)
    ensures Newlines(StripHtmlTags(s)) == Newlines(s)
    decreases |s|
  {
    if s != [] {
      if s[0] == '<' && CloseAt(s, 1).Some? {
        StripKeepsNewlines(s[CloseAt(s, 1).value + 1..]);
        TagSpanNewlines(s);
      } else {
        StripKeepsNewlines(s[1..]);
        NewlinesCons(s[0], StripHtmlTags(s[1..]));
      }
    }
  }

  /** A removed tag spans no newline. */
  lemma TagSpanNewlines(s: string)
    requires s != [] && s[0] == '<' && CloseAt(s, 1).Some?
    ensures Newlines(s) == Newlines(s[CloseAt(s, 1).value + 1..])
  {
    var j := CloseAt(s, 1).value;
    forall m | 0 <= m < j + 1
      ensures s[m] != '\n'
    {
      if 0 < m < j {
        assert s[m] != '>' && s[m] != '\n';
      }
    }
    NoNewlineSpan(s, j + 1);
  }

  lemma NewlinesCons(c: char, t: string)
    ensures Newlines([c] + t) == (if c == '\n' then 1 else 0) + Newlines(t)
  {
    assert ([c] + t)[1..] == t;
  }

  /** A prefix `s[..j]` closed by CloseAt holds no newline. */
  lemma {:induction false} NoNewlineSpan(s: string, j: nat)
    requires 1 <= j <= |s|
    requires forall m :: 0 <= m < j ==> s[m] != '\n'
    ensures Newlines(s) == Newlines(s[j..])
    decreases j
  {
    if j > 1 {
      NoNewlineSpan(s[1..], j - 1);
      assert s[1..][j - 1..] == s[j..];
    }
  }

  // ----------------------------------------------------------- the story

  /** What the renderer receives: a paragraph of original text, a paragraph
      of translated text (the light-grey style), or vertical space. */
  datatype StoryItem = Normal(line: string) | Translated(line: string) | Spacer

  /** The lines of a text that are not blank, in order. */
  function NonBlankLines(lines: seq<string>): (r: seq<string>)
    ensures |r| <= |lines|
    ensures forall k :: 0 <= k < |r| ==> !IsBlank(r[k]) && r[k] in lines
    ensures |lines| == 1 ==> r == (if IsBlank(lines[0]) then [] else lines)
  {
    if lines == [] then []
    else if IsBlank(lines[0]) then NonBlankLines(lines[1..])
    else [lines[0]] + NonBlankLines(lines[1..])
  }

  /** A paragraph as the renderer receives it: one non-blank line. */
  predicate IsParagraph(line: string) {
    !IsBlank(line) && '\n' !in line
  }

  /** The paragraphs a text becomes: tags stripped, split on newlines,
      blank lines dropped. */
  function Paragraphs(text: string): (r: seq<string>)
    ensures forall k :: 0 <= k < |r| ==> IsParagraph(r[k])
  {
    NonBlankLines(SplitLines(StripHtmlTags(text)))
  }

  /** Filtering drops only blank lines: every non-blank line is kept. */
  lemma {:induction false} NonBlankLinesKeepsText(lines: seq<string>)
    ensures forall k :: 0 <= k < |lines| && !IsBlank(lines[k]) ==> lines[k] in NonBlankLines(lines)
  {
    if lines != [] {
      NonBlankLinesKeepsText(lines[1..]);
      assert forall k :: 1 <= k < |lines| ==> lines[k] == lines[1..][k - 1];
    }
  }

  /** Filtering goes line by line: the kept lines of `a + b` are those of
      `a` followed by those of `b`, so order and repeats are preserved. */
  lemma {:induction false} NonBlankLinesAppend(a: seq<string>, b: seq<string>)
    ensures NonBlankLines(a + b) == NonBlankLines(a) + NonBlankLines(b)
    decreases |a|
  {
    if a == [] {
      assert a + b == b;
    } else {
      assert (a + b)[0] == a[0];
      assert (a + b)[1..] == a[1..] + b;
      NonBlankLinesAppend(a[1..], b);
      if !IsBlank(a[0]) {
        AppendAssoc([a[0]], NonBlankLines(a[1..]), NonBlankLines(b));
      }
    }
  }

  /** Stripping never creates a character: what it keeps was in the text. */
  lemma {:induction false} StripKeepsOnlyText(s: string, c: char)
    requires c !in s
    ensures c !in StripHtmlTags(s)
    decreases |s|
  {
    if s != [] {
      if s[0] == '<' && CloseAt(s, 1).Some? {
        var j := CloseAt(s, 1).value;
        assert c !in s[j + 1..];
        StripKeepsOnlyText(s[j + 1..], c);
      } else {
        assert c !in s[1..];
        StripKeepsOnlyText(s[1..], c);
      }
    }
  }

  /** Within a first line `a`, a tag closes at the same place whatever
      follows the line break. */
  lemma {:induction false} CloseAtWithinLine(a: string, b: string, k: nat)
    requires '\n' !in a && k <= |a|
    ensures CloseAt(a + "\n" + b, k) == CloseAt(a, k)
    decreases |a| - k
  {
    var s := a + "\n" + b;
    if k < |a| {
      assert s[k] == a[k];
      if a[k] != '>' {
        CloseAtWithinLine(a, b, k + 1);
      }
    } else {
      assert s[k] == '\n';
    }
  }

  /** No tag spans a line break: the lines of a text are stripped one by one. */
  lemma {:induction false} StripOverNewline(a: string, b: string)
    requires '\n' !in a
    ensures StripHtmlTags(a + "\n" + b) == StripHtmlTags(a) + "\n" + StripHtmlTags(b)
    decreases |a|
  {
    var s := a + "\n" + b;
    if a == [] {
      assert s == "\n" + b && s[1..] == b;
    } else {
      assert s[0] == a[0];
      if a[0] == '<' {
        CloseAtWithinLine(a, b, 1);
      }
      if a[0] == '<' && CloseAt(a, 1).Some? {
        var j := CloseAt(a, 1).value;
        assert s[j + 1..] == a[j + 1..] + "\n" + b;
        StripOverNewline(a[j + 1..], b);
      } else {
        assert s[1..] == a[1..] + "\n" + b;
        StripOverNewline(a[1..], b);
        AppendAssoc([a[0]], StripHtmlTags(a[1..]), "\n" + StripHtmlTags(b));
        AppendAssoc(StripHtmlTags(a[1..]), "\n", StripHtmlTags(b));
        AppendAssoc([a[0]] + StripHtmlTags(a[1..]), "\n", StripHtmlTags(b));
      }
    }
  }

  /** A single line (no line break) gives at most one paragraph: its text
      with tags stripped, unless that is blank. */
  lemma ParagraphsOfLine(a: string)
    requires '\n' !in a
    ensures var x := StripHtmlTags(a);
            Paragraphs(a) == (if IsBlank(x) then [] else [x])
  {
    StripKeepsOnlyText(a, '\n');
    SplitNoNewline(StripHtmlTags(a));
  }

  /** The paragraphs of a text are those of its first line followed by those
      of the rest: lines are kept in order, each on its own. */
  lemma ParagraphsLineByLine(a: string, b: string)
    requires '\n' !in a
    ensures Paragraphs(a + "\n" + b) == Paragraphs(a) + Paragraphs(b)
  {
    var x := StripHtmlTags(a);
    StripOverNewline(a, b);
    StripKeepsOnlyText(a, '\n');
    SplitPrefix(x, StripHtmlTags(b));
    SplitNoNewline(x);
    NonBlankLinesAppend([x], SplitLines(StripHtmlTags(b)));
  }

  /** A single non-blank line without markup is one paragraph, unchanged. */
  lemma PlainLineIsOneParagraph(s: string)
    requires '<' !in s && '\n' !in s && !IsBlank(s)
    ensures Paragraphs(s) == [s]
  {
    SplitNoNewline(s);
    assert SplitLines(s) == [s];
    assert NonBlankLines([s]) == [s] + NonBlankLines([]);
  }

  function AsNormal(lines: seq<string>): (r: seq<StoryItem>)
    ensures |r| == |lines| && forall k :: 0 <= k < |r| ==> r[k] == Normal(lines[k])
  {
    if lines == [] then [] else [Normal(lines[0])] + AsNormal(lines[1..])
  }

  function AsTranslated(lines: seq<string>): (r: seq<StoryItem>)
    ensures |r| == |lines| && forall k :: 0 <= k < |r| ==> r[k] == Translated(lines[k])
  {
    if lines == [] then [] else [Translated(lines[0])] + AsTranslated(lines[1..])
  }

  /** Whether a unit's translation is rendered: `content_type` is "split",
      which is also what a missing field counts as. */
  function ShowsTranslation(u: Unit): (r: bool)
    ensures r <==> u.contentType.None? || u.contentType == Some(SPLIT)
  {
    u.contentType.GetOr(SPLIT) == SPLIT
  }

  /** A unit's block: original lines, translated lines, one spacer. */
  function Block(originals: seq<string>, translations: seq<string>): (r: seq<StoryItem>)
    ensures |r| == |originals| + |translations| + 1 && r[|r| - 1] == Spacer
    ensures forall k :: 0 <= k < |originals| ==> r[k] == Normal(originals[k])
    ensures forall k :: 0 <= k < |translations| ==> r[|originals| + k] == Translated(translations[k])
  {
    AsNormal(originals) + AsTranslated(translations) + [Spacer]
  }

  /** The items one unit contributes: its original paragraphs, then (for a
      "split" unit) the paragraphs of its translation, an absent translation
      counting as "", then one spacer. */
  function RenderUnit(u: Unit): (r: seq<StoryItem>)
    ensures |r| >= 1 && r[|r| - 1] == Spacer
    ensures forall k :: 0 <= k < |r| - 1 ==> r[k] != Spacer
    ensures var originals := Paragraphs(u.original);
            |originals| < |r| && forall k :: 0 <= k < |originals| ==> r[k] == Normal(originals[k])
    ensures !ShowsTranslation(u) || u.translated.None? ==> |r| == |Paragraphs(u.original)| + 1
  {
    BlockOrder(Paragraphs(u.original), Translations(u));
    Block(Paragraphs(u.original), Translations(u))
  }

  /** The unit-to-story loop of `create_pdf`. */
  function Render(units: seq<Unit>): (r: seq<StoryItem>)
    ensures units == [] ==> r == []
    ensures units != [] ==> |RenderUnit(units[0])| <= |r| && r[..|RenderUnit(units[0])|] == RenderUnit(units[0])
    ensures units != [] ==> r[|r| - 1] == Spacer
    ensures |r| >= |units|
  {
    RenderShape(units);
    FlatMap(units, RenderUnit)
  }

  /** The story opens with the first unit's block, closes with a spacer, and
      holds at least one item per unit. */
  lemma {:induction false} RenderShape(units: seq<Unit>)
    ensures var r := FlatMap(units, RenderUnit);
            && |r| >= |units|
            && (units != [] ==> |RenderUnit(units[0])| <= |r| && r[..|RenderUnit(units[0])|] == RenderUnit(units[0]))
            && (units != [] ==> r[|r| - 1] == Spacer)
  {
    if units != [] {
      var head := RenderUnit(units[0]);
      var rest := FlatMap(units[1..], RenderUnit);
      assert FlatMap(units, RenderUnit) == head + rest;
      RenderShape(units[1..]);
      assert (head + rest)[..|head|] == head;
      if rest != [] {
        assert (head + rest)[|head + rest| - 1] == rest[|rest| - 1];
      }
    }
  }

  /** How many spacers a story holds. */
  function Spacers(items: seq<StoryItem>): nat {
    if items == [] then 0 else (if items[0] == Spacer then 1 else 0) + Spacers(items[1..])
  }

  /** Rank of an item within one unit's block: originals, then
      translations, then the spacer. */
  function Rank(item: StoryItem): nat {
    match item
    case Normal(_) => 0
    case Translated(_) => 1
    case Spacer => 2
  }

  /** Paragraphs of the original, then of the translation when shown. */
  function Translations(u: Unit): (r: seq<string>)
    ensures !ShowsTranslation(u) || u.translated.None? ==> r == []
    ensures ShowsTranslation(u) && u.translated.Some? ==> r == Paragraphs(u.translated.value)
    ensures forall k :: 0 <= k < |r| ==> IsParagraph(r[k])
  {
    assert Paragraphs("") == [] by {
      assert SplitLines("") == [""];
      assert IsBlank("");
    }
    if ShowsTranslation(u) then Paragraphs(u.translated.GetOr("")) else []
  }

  /** Within a block, original lines come before translated lines, which
      come before the one spacer, its last item. */
  lemma BlockOrder(originals: seq<string>, translations: seq<string>)
    ensures var r := Block(originals, translations);
            && (forall i, j :: 0 <= i < j < |r| ==> Rank(r[i]) <= Rank(r[j]))
            && (forall k :: 0 <= k < |r| - 1 ==> r[k] != Spacer)
  {
    var r := Block(originals, translations);
    forall i, j | 0 <= i < j < |r|
      ensures Rank(r[i]) <= Rank(r[j])
    {
      if i < |originals| {
        assert r[i] == Normal(originals[i]);
      } else if j < |originals| + |translations| {
        assert r[i] == Translated(translations[i - |originals|]);
        assert r[j] == Translated(translations[j - |originals|]);
      }
    }
    forall k | 0 <= k < |r| - 1
      ensures r[k] != Spacer
    {
      if k < |originals| {
        assert r[k] == Normal(originals[k]);
      } else {
        assert r[k] == Translated(translations[k - |originals|]);
      }
    }
  }

  /** A block built from paragraphs carries only paragraphs, besides the spacer. */
  lemma BlockLines(originals: seq<string>, translations: seq<string>)
    requires forall k :: 0 <= k < |originals| ==> IsParagraph(originals[k])
    requires forall k :: 0 <= k < |translations| ==> IsParagraph(translations[k])
    ensures var r := Block(originals, translations);
            forall k :: 0 <= k < |r| && !r[k].Spacer? ==> IsParagraph(r[k].line)
  {
    var r := Block(originals, translations);
    forall k | 0 <= k < |r| && !r[k].Spacer?
      ensures IsParagraph(r[k].line)
    {
      if k < |originals| {
        assert r[k] == Normal(originals[k]);
      } else {
        assert r[k] == Translated(translations[k - |originals|]);
      }
    }
  }

  /** Every item of a unit's block except the spacer is one of its
      paragraphs: a non-blank line without line break. */
  lemma UnitLines(u: Unit)
    ensures var r := RenderUnit(u);
            forall k :: 0 <= k < |r| && !r[k].Spacer? ==> IsParagraph(r[k].line)
  {
    var originals := Paragraphs(u.original);
    var translations := Translations(u);
    assert forall k :: 0 <= k < |originals| ==> IsParagraph(originals[k]);
    assert forall k :: 0 <= k < |translations| ==> IsParagraph(translations[k]);
    BlockLines(originals, translations);
  }

  /** Rendering distributes over concatenation: units appear in input
      order, each as its own block. */
  lemma RenderAppend(a: seq<Unit>, b: seq<Unit>)
    ensures Render(a + b) == Render(a) + Render(b)
  {
    FlatMapAppend(a, b, RenderUnit);
  }

  /** Every unit contributes exactly one spacer. */
  lemma {:induction false} SpacerPerUnit(units: seq<Unit>)
    ensures Spacers(Render(units)) == |units|
  {
    if units != [] {
      var block := RenderUnit(units[0]);
      assert Render(units) == block + Render(units[1..]);
      SpacersAppend(block, Render(units[1..]));
      UnitHasOneSpacer(units[0]);
      SpacerPerUnit(units[1..]);
    }
  }

  lemma UnitHasOneSpacer(u: Unit)
    ensures Spacers(RenderUnit(u)) == 1
  {
    var originals := Paragraphs(u.original);
    var translations := Translations(u);
    BlockOrder(originals, translations);
    OneSpacer(Block(originals, translations));
  }

  lemma {:induction false} SpacersAppend(a: seq<StoryItem>, b: seq<StoryItem>)
    ensures Spacers(a + b) == Spacers(a) + Spacers(b)
  {
    if a == [] {
      assert a + b == b;
    } else {
      assert (a + b)[1..] == a[1..] + b;
      SpacersAppend(a[1..], b);
    }
  }

  /** A block whose only spacer is its last item counts one spacer. */
  lemma {:induction false} OneSpacer(r: seq<StoryItem>)
    requires |r| >= 1 && r[|r| - 1] == Spacer
    requires forall k :: 0 <= k < |r| - 1 ==> r[k] != Spacer
    ensures Spacers(r) == 1
  {
    if |r| > 1 {
      OneSpacer(r[1..]);
    }
  }

  /** A missing translation renders like an empty one: no translated line. */
  lemma MissingTranslationRendersNothing(original: string, contentType: Option<string>)
    ensures RenderUnit(Unit(original, None, contentType)) == RenderUnit(Unit(original, Some(""), contentType))
    ensures RenderUnit(Unit(original, None, contentType)) == Block(Paragraphs(original), [])
  {
    assert SplitLines("") == [""];
    assert IsBlank("");
    assert Paragraphs("") == [];
  }

  /** A "whole" unit renders its original lines only; a "split" unit, or one
      without a content type, renders its translation after them. */
  lemma ContentTypeSelectsTranslation(u: Unit)
    ensures u.contentType == Some(WHOLE) ==> RenderUnit(u) == Block(Paragraphs(u.original), [])
    ensures u.contentType == Some(SPLIT) || u.contentType.None? ==>
              RenderUnit(u) == Block(Paragraphs(u.original), Paragraphs(u.translated.GetOr("")))
  {
    assert WHOLE != SPLIT by { assert WHOLE[0] != SPLIT[0]; }
  }
}

=== FILE: extraction.dfy ===
/** The OCR page store and its resumable extraction loop
    (modules/extract.py). The rendered page image, its base64 encoding,
    the OCR service and every write to disk are oracles: for each PDF page
    the loop is handed what encoding and OCR produced, and for each
    recognised page whether the file write went through. */
module Extraction {
  import opened Outcomes

  /** One recognised page: `{page_number, markdown}`; `pageNumber` is 1-based. */
  datatype PageRecord = PageRecord(pageNumber: int, markdown: string)

  /** The content of `ocr_response.json`: the records and the progress cursor. */
  datatype ExtractionState = ExtractionState(pages: seq<PageRecord>, currentPage: nat)

  /** The state `save_json_response` starts from when no file exists. */
  const FreshState := ExtractionState([], 0)

  /** The records a readable file holds; none for a missing one. */
  function Records(file: JsonFile<ExtractionState>): seq<PageRecord> {
    if file.Holds? then file.content.pages else []
  }

  /** The store invariant: the cursor counts the records. */
  predicate CursorCountsRecords(file: JsonFile<ExtractionState>) {
    file.Holds? ==> file.content.currentPage == |file.content.pages|
  }

  /** One call of `save_json_response(page_number, page_content, ...)`.
      `pageIndex` is the 0-based PDF page; `writeOk` says whether opening
      and writing the file succeeded. Any exception (unreadable file, failed
      write) is swallowed and leaves the file as it was. */
  function SaveJsonResponse(file: JsonFile<ExtractionState>, pageIndex: nat, markdown: string, writeOk: bool)
    : (r: JsonFile<ExtractionState>)
    ensures r == file <==> file.Unreadable? || !writeOk
    ensures r != file ==> r.Holds? && r.content.currentPage == |r.content.pages|
    ensures r != file ==> r.content.pages == Records(file) + [PageRecord(pageIndex + 1, markdown)]
  {
    if file.Unreadable? then file
    else
      var data := if file.Holds? then file.content else FreshState;
      var pages := data.pages + [PageRecord(pageIndex + 1, markdown)];
      var saved := ExtractionState(pages, |pages|);
      if writeOk then Holds(saved) else file
  }

  /** What OCR returned for one page of the response: its markdown, and
      whether saving it reached the disk. */
  datatype OcrPage = OcrPage(markdown: string, writeOk: bool)

  /** What happened to one PDF page: the image could not be encoded (the
      page is skipped), the OCR call raised (the whole loop stops), or OCR
      returned a list of pages. */
  datatype PageOutcome = EncodeFailed | OcrFailed | Recognised(ocr: seq<OcrPage>)

  /** The records a list of OCR pages should add for PDF page `pageIndex`:
      one per page whose write succeeded, in order, all numbered `pageIndex + 1`. */
  function SavedRecords(pageIndex: nat, ocr: seq<OcrPage>): (r: seq<PageRecord>)
    ensures |r| <= |ocr|
    ensures forall k :: 0 <= k < |r| ==> r[k].pageNumber == pageIndex + 1
    ensures (forall k :: 0 <= k < |ocr| ==> ocr[k].writeOk) ==>
              r == seq(|ocr|, k requires 0 <= k < |ocr| => PageRecord(pageIndex + 1, ocr[k].markdown))
    ensures (forall k :: 0 <= k < |ocr| ==> !ocr[k].writeOk) ==> r == []
  {
    if ocr == [] then []
    else
      var rest := SavedRecords(pageIndex, ocr[1..]);
      if ocr[0].writeOk then [PageRecord(pageIndex + 1, ocr[0].markdown)] + rest else rest
  }

  /** The inner `for page in ocr_response.pages` loop: one save per OCR page. */
  function SaveAll(file: JsonFile<ExtractionState>, pageIndex: nat, ocr: seq<OcrPage>): (r: JsonFile<ExtractionState>)
    ensures file.Unreadable? ==> r == file
    ensures !file.Unreadable? ==> Records(r) == Records(file) + SavedRecords(pageIndex, ocr)
    ensures r == file || (r.Holds? && r.content.currentPage == |r.content.pages|)
    decreases |ocr|
  {
    if ocr == [] then file
    else
      var next := SaveJsonResponse(file, pageIndex, ocr[0].markdown, ocr[0].writeOk);
      var r := SaveAll(next, pageIndex, ocr[1..]);
      assert !file.Unreadable? ==> Records(r) == Records(file) + SavedRecords(pageIndex, ocr) by {
        if !file.Unreadable? {
          if ocr[0].writeOk {
            assert Records(r) == Records(file) + [PageRecord(pageIndex + 1, ocr[0].markdown)] + SavedRecords(pageIndex, ocr[1..]);
          }
        }
      }
      r
  }

  /** The PDF page extraction resumes at: the cursor, or 0 without a file. */
  function StartPage(file: JsonFile<ExtractionState>): (r: nat)
    ensures CursorCountsRecords(file) ==> r == |Records(file)|
    ensures file.Missing? ==> r == 0
  {
    if file.Holds? then file.content.currentPage else 0
  }

  /** The outer loop over PDF pages `p .. |outcomes| - 1`. */
  function ExtractLoop(file: JsonFile<ExtractionState>, outcomes: seq<PageOutcome>, p: nat): (r: JsonFile<ExtractionState>)
    decreases |outcomes| - p
    ensures file.Unreadable? ==> r == file
    ensures |Records(file)| <= |Records(r)| && Records(r)[..|Records(file)|] == Records(file)
    ensures r == file || (r.Holds? && r.content.currentPage == |r.content.pages|)
    ensures forall k :: |Records(file)| <= k < |Records(r)| ==> p + 1 <= Records(r)[k].pageNumber <= |outcomes|
  {
    if p >= |outcomes| then file
    else match outcomes[p]
      case EncodeFailed => ExtractLoop(file, outcomes, p + 1)
      case OcrFailed => file
      case Recognised(ocr) =>
        var saved := SaveAll(file, p, ocr);
        var r := ExtractLoop(saved, outcomes, p + 1);
        assert Records(r)[..|Records(saved)|] == Records(saved);
        assert forall k :: |Records(file)| <= k < |Records(saved)| ==> Records(r)[k].pageNumber == p + 1 by {
          if !file.Unreadable? {
            forall k | |Records(file)| <= k < |Records(saved)|
              ensures Records(r)[k].pageNumber == p + 1
            {
              assert Records(r)[k] == Records(saved)[k] == SavedRecords(p, ocr)[k - |Records(file)|];
            }
          }
        }
        r
  }

  /** `extract_text_from_pdf`: read the cursor once, then run the loop from
      it. An unreadable file raises before the loop and nothing is written. */
  function ExtractTextFromPdf(file: JsonFile<ExtractionState>, outcomes: seq<PageOutcome>): (r: JsonFile<ExtractionState>)
    ensures file.Unreadable? ==> r == file
    ensures !file.Unreadable? && StartPage(file) >= |outcomes| ==> r == file
    ensures |Records(file)| <= |Records(r)| && Records(r)[..|Records(file)|] == Records(file)
    ensures CursorCountsRecords(file) ==> CursorCountsRecords(r)
  {
    if file.Unreadable? then file else ExtractLoop(file, outcomes, StartPage(file))
  }
}

/** Runs of the extraction loop as a whole: a complete run, a resumed run,
    and what a skipped page does to the resume point. */
module ExtractionProperties {
  import opened Outcomes
  import opened Extraction

  /** From PDF page `p` on, every page is encoded, OCR returns exactly one
      page for it (with markdown `mds[q]`), and the save succeeds. */
  predicate AllRecognisedFrom(outcomes: seq<PageOutcome>, mds: seq<string>, p: nat) {
    && |mds| == |outcomes|
    && forall q :: p <= q < |outcomes| ==> outcomes[q] == Recognised([OcrPage(mds[q], true)])
  }

  /** The records such a run appends: one per page, numbered `q + 1`. */
  function ExpectedRecords(mds: seq<string>, p: nat): (r: seq<PageRecord>)
    requires p <= |mds|
    decreases |mds| - p
    ensures |r| == |mds| - p
    ensures forall k :: 0 <= k < |r| ==> r[k] == PageRecord(p + k + 1, mds[p + k])
  {
    if p == |mds| then [] else [PageRecord(p + 1, mds[p])] + ExpectedRecords(mds, p + 1)
  }

  /** Without failures the loop appends exactly one record per remaining
      page, in page order, and leaves a consistent cursor. */
  lemma LoopWithoutFailures(file: JsonFile<ExtractionState>, outcomes: seq<PageOutcome>, mds: seq<string>, p: nat)
    requires !file.Unreadable? && p <= |outcomes|
    requires AllRecognisedFrom(outcomes, mds, p)
    ensures Records(ExtractLoop(file, outcomes, p)) == Records(file) + ExpectedRecords(mds, p)
    ensures p < |outcomes| ==> ExtractLoop(file, outcomes, p).Holds?
    ensures CursorCountsRecords(file) ==> CursorCountsRecords(ExtractLoop(file, outcomes, p))
  {
    LoopAppendsExpected(file, outcomes, p);
    ExpectedFromFailureFree(outcomes, mds, p);
    if p < |outcomes| {
      var saved := RecognisedStep(file, outcomes, mds, p);
    }
  }

  /** Without failures the general reference `ExpectedFrom` is the
      one-record-per-page reference `ExpectedRecords`. */
  lemma {:induction false} ExpectedFromFailureFree(outcomes: seq<PageOutcome>, mds: seq<string>, p: nat)
    requires p <= |outcomes|
    requires AllRecognisedFrom(outcomes, mds, p)
    ensures ExpectedFrom(outcomes, p) == ExpectedRecords(mds, p)
    decreases |outcomes| - p
  {
    if p < |outcomes| {
      var ocr := [OcrPage(mds[p], true)];
      assert outcomes[p] == Recognised(ocr);
      assert SavedRecords(p, ocr) == [PageRecord(p + 1, mds[p])];
      assert AllRecognisedFrom(outcomes, mds, p + 1);
      ExpectedFromFailureFree(outcomes, mds, p + 1);
      assert ExpectedRecords(mds, p) == [PageRecord(p + 1, mds[p])] + ExpectedRecords(mds, p + 1);
    }
  }

  /** One page of such a run: its record is saved and the loop moves on. */
  lemma RecognisedStep(file: JsonFile<ExtractionState>, outcomes: seq<PageOutcome>, mds: seq<string>, p: nat)
    returns (saved: JsonFile<ExtractionState>)
    requires !file.Unreadable? && p < |outcomes|
    requires AllRecognisedFrom(outcomes, mds, p)
    ensures ExtractLoop(file, outcomes, p) == ExtractLoop(saved, outcomes, p + 1)
    ensures saved.Holds? && CursorCountsRecords(saved)
    ensures Records(saved) == Records(file) + [PageRecord(p + 1, mds[p])]
    ensures AllRecognisedFrom(outcomes, mds, p + 1)
    ensures ExpectedRecords(mds, p) == [PageRecord(p + 1, mds[p])] + ExpectedRecords(mds, p + 1)
  {
    var ocr := [OcrPage(mds[p], true)];
    assert outcomes[p] == Recognised(ocr);
    saved := SaveAll(file, p, ocr);
    assert SavedRecords(p, ocr) == [PageRecord(p + 1, mds[p])];
  }

  /** A resumed run over a consistent store picks up at the cursor, appends
      the missing pages once each, and leaves the cursor at the page count,
      so running it again changes nothing. */
  lemma ResumeCompletesStore(file: JsonFile<ExtractionState>, outcomes: seq<PageOutcome>, mds: seq<string>)
    requires !file.Unreadable? && CursorCountsRecords(file)
    requires StartPage(file) <= |outcomes|
    requires AllRecognisedFrom(outcomes, mds, StartPage(file))
    ensures Records(ExtractTextFromPdf(file, outcomes)) == Records(file) + ExpectedRecords(mds, StartPage(file))
    ensures StartPage(ExtractTextFromPdf(file, outcomes)) == |outcomes|
    ensures ExtractTextFromPdf(ExtractTextFromPdf(file, outcomes), outcomes) == ExtractTextFromPdf(file, outcomes)
  {
    LoopWithoutFailures(file, outcomes, mds, StartPage(file));
  }

  /** A page whose image cannot be encoded adds no record and the loop goes
      on; an OCR failure ends the loop with the file as it is. */
  lemma FailedPageEffects(file: JsonFile<ExtractionState>, outcomes: seq<PageOutcome>, p: nat)
    requires p < |outcomes|
    ensures outcomes[p] == EncodeFailed ==> ExtractLoop(file, outcomes, p) == ExtractLoop(file, outcomes, p + 1)
    ensures outcomes[p] == OcrFailed ==> ExtractLoop(file, outcomes, p) == file
  {
  }

  /** What the loop from PDF page `p` appends, whatever each page's outcome:
      the saved records of a recognised page, nothing for a page whose image
      could not be encoded, and nothing from the first OCR failure on. */
  function ExpectedFrom(outcomes: seq<PageOutcome>, p: nat): seq<PageRecord>
    decreases |outcomes| - p
  {
    if p >= |outcomes| then []
    else match outcomes[p]
      case EncodeFailed => ExpectedFrom(outcomes, p + 1)
      case OcrFailed => []
      case Recognised(ocr) => SavedRecords(p, ocr) + ExpectedFrom(outcomes, p + 1)
  }

  /** On a readable or missing store the loop appends exactly
      `ExpectedFrom(outcomes, p)`: every page from `p` is visited once, in
      order, up to the first OCR failure. */
  lemma {:induction false} LoopAppendsExpected(file: JsonFile<ExtractionState>, outcomes: seq<PageOutcome>, p: nat)
    requires !file.Unreadable?
    ensures Records(ExtractLoop(file, outcomes, p)) == Records(file) + ExpectedFrom(outcomes, p)
    decreases |outcomes| - p
  {
    if p < |outcomes| {
      match outcomes[p]
      case EncodeFailed =>
        LoopAppendsExpected(file, outcomes, p + 1);
      case OcrFailed =>
        assert Records(file) + [] == Records(file);
      case Recognised(ocr) =>
        var saved := SaveAll(file, p, ocr);
        LoopAppendsExpected(saved, outcomes, p + 1);
        AppendAssoc(Records(file), SavedRecords(p, ocr), ExpectedFrom(outcomes, p + 1));
    }
  }

  /** The cursor counts records, not PDF pages: after a first run that
      skipped page 0, the resumed run restarts at the last PDF page, which
      already has a record, and records it a second time. */
  lemma SkippedPageShiftsResume(outcomes: seq<PageOutcome>, mds: seq<string>)
    requires |outcomes| >= 2 && outcomes[0] == EncodeFailed
    requires AllRecognisedFrom(outcomes, mds, 1)
    ensures StartPage(ExtractTextFromPdf(Missing, outcomes)) == |outcomes| - 1
    ensures var again := ExtractTextFromPdf(ExtractTextFromPdf(Missing, outcomes), outcomes);
            var n := |outcomes|;
            |Records(again)| == n
            && Records(again)[n - 2] == Records(again)[n - 1] == PageRecord(n, mds[n - 1])
  {
    var n := |outcomes|;
    var first := ExtractTextFromPdf(Missing, outcomes);
    assert first == ExtractLoop(Missing, outcomes, 1);
    LoopWithoutFailures(Missing, outcomes, mds, 1);
    assert |Records(first)| == n - 1;
    assert Records(first)[n - 2] == PageRecord(n, mds[n - 1]);
    assert AllRecognisedFrom(outcomes, mds, n - 1);
    LoopWithoutFailures(first, outcomes, mds, n - 1);
    assert ExpectedRecords(mds, n - 1) == [PageRecord(n, mds[n - 1])];
  }
}

=== FILE: languagecode.dfy ===
/** The command-line check applied to `--source_language` and
    `--target_language` (main.py, `validate_language_code`). Character
    classes are those of ASCII letters. */
module LanguageCode {
  import opened Outcomes

  /** The three rejections, in the order the checks run. */
  datatype CodeError = NotTwoCharacters | NotAlphabetic | NotUppercase

  predicate IsLetter(c: char) {
    'A' <= c <= 'Z' || 'a' <= c <= 'z'
  }

  predicate IsUpperLetter(c: char) {
    'A' <= c <= 'Z'
  }

  /** `s.isalpha()`: non-empty and letters only. */
  predicate StrIsAlpha(s: string) {
    |s| > 0 && forall k :: 0 <= k < |s| ==> IsLetter(s[k])
  }

  /** `s.isupper()`: at least one cased character, and every cased
      character is upper case. */
  predicate StrIsUpper(s: string) {
    && (exists k :: 0 <= k < |s| && IsLetter(s[k]))
    && (forall k :: 0 <= k < |s| && IsLetter(s[k]) ==> IsUpperLetter(s[k]))
  }

  /** What the command line is meant to accept: an upper-case two-letter
      code such as "EN" or "IT". */
  predicate IsUpperIsoCode(s: string) {
    |s| == 2 && IsUpperLetter(s[0]) && IsUpperLetter(s[1])
  }

  /** Checks length, then letters, then case; the first failing check
      decides the error, and an accepted code comes back unchanged. */
  function Validate(code: string): (r: Result<string, CodeError>)
    ensures r.Success? <==> IsUpperIsoCode(code)
    ensures r.Success? ==> r.value == code
    ensures |code| != 2 ==> r == Failure(NotTwoCharacters)
    ensures |code| == 2 && !(IsLetter(code[0]) && IsLetter(code[1])) ==> r == Failure(NotAlphabetic)
    ensures (|code| == 2 && IsLetter(code[0]) && IsLetter(code[1]) && !IsUpperIsoCode(code)) ==>
              r == Failure(NotUppercase)
  {
    if |code| != 2 then Failure(NotTwoCharacters)
    else if !StrIsAlpha(code) then
      assert !IsLetter(code[0]) || !IsLetter(code[1]);
      Failure(NotAlphabetic)
    else if !StrIsUpper(code) then
      Failure(NotUppercase)
    else
      assert IsLetter(code[0]) ==> IsUpperLetter(code[0]);
      Success(code)
  }

  /** One code rejected by each check, in the order the checks run, and
      one accepted code. */
  lemma OneCodePerCheck()
    ensures Validate("ENG") == Failure(NotTwoCharacters)
    ensures Validate("E1") == Failure(NotAlphabetic)
    ensures Validate("it") == Failure(NotUppercase)
    ensures Validate("IT") == Success("IT")
  {
  }
}

=== FILE: outcomes.dfy ===
/** Failure-carrying values shared by every stage of the pipeline, the
    abstract view of a persisted JSON file, and two sequence utilities. */
module Outcomes {

  /** A value that may be absent (Python's `None` / `dict.get` default). */
  datatype Option<+T> = None | Some(value: T) {

    /** The value, or `default` when absent: `d.get(key, default)`. */
    function GetOr(default: T): T {
      match this
      case Some(v) => v
      case None => default
    }
  }

  /** The outcome of a call that may raise. */
  datatype Result<+T, +E> = Success(value: T) | Failure(error: E)

  /** A JSON state file on disk, seen as a value: it does not exist, it
      exists but cannot be parsed into the expected shape, or it holds a
      state. Every write replaces the whole value. */
  datatype JsonFile<+T> = Missing | Unreadable | Holds(content: T)

  /** The concatenation of `f(x)` over the elements `x` of `xs`, in order. */
  function FlatMap<T, U>(xs: seq<T>, f: T -> seq<U>): seq<U> {
    if xs == [] then [] else f(xs[0]) + FlatMap(xs[1..], f)
  }

  /** FlatMap distributes over concatenation. */
  lemma {:induction false} FlatMapAppend<T, U>(a: seq<T>, b: seq<T>, f: T -> seq<U>)
    ensures FlatMap(a + b, f) == FlatMap(a, f) + FlatMap(b, f)
  {
    if a == [] {
      assert a + b == b;
    } else {
      assert (a + b)[0] == a[0] && (a + b)[1..] == a[1..] + b;
      FlatMapAppend(a[1..], b, f);
      AppendAssoc(f(a[0]), FlatMap(a[1..], f), FlatMap(b, f));
    }
  }

  /** Concatenation regroups freely. */
  lemma AppendAssoc<T>(a: seq<T>, b: seq<T>, c: seq<T>)
    ensures a + b + c == a + (b + c)
  {
  }
}

=== FILE: pytext.dfy ===
/** The few Python string operations the pipeline relies on: `str.strip()`,
    "is blank" (`not s.strip()`) and `str.split('\n')`. Strings are
    sequences of Unicode scalar values, as Python's `str` is. */
module PyText {

  /** The characters `str.isspace()` accepts, which are the ones
      `str.strip()` removes when called without arguments. */
  predicate IsSpace(c: char) {
    || c == ' '
    || ('\t' <= c <= '\r')            // \t \n \v \f \r
    || ('\U{1c}' <= c <= '\U{1f}')    // file, group, record and unit separators
    || c == '\U{85}' || c == '\U{a0}' || c == '\U{1680}'
    || ('\U{2000}' <= c <= '\U{200a}')
    || c == '\U{2028}' || c == '\U{2029}' || c == '\U{202f}' || c == '\U{205f}' || c == '\U{3000}'
  }

  /** Every character of `s` is whitespace (vacuously true of ""). */
  predicate AllSpace(s: string) {
    forall k :: 0 <= k < |s| ==> IsSpace(s[k])
  }

  /** Two all-whitespace strings concatenate to one. */
  lemma AllSpaceJoin(a: string, b: string)
    requires AllSpace(a) && AllSpace(b)
    ensures AllSpace(a + b)
  {
    var ab := a + b;
    forall k | 0 <= k < |ab|
      ensures IsSpace(ab[k])
    {
      if k >= |a| { assert ab[k] == b[k - |a|]; }
    }
  }

  /** Both parts of an all-whitespace concatenation are all whitespace. */
  lemma AllSpaceParts(a: string, b: string)
    requires AllSpace(a + b)
    ensures AllSpace(a) && AllSpace(b)
  {
    var ab := a + b;
    forall k | 0 <= k < |a|
      ensures IsSpace(a[k])
    {
      assert ab[k] == a[k];
    }
    forall k | 0 <= k < |b|
      ensures IsSpace(b[k])
    {
      assert ab[k + |a|] == b[k];
    }
  }

  /** `s.lstrip()`: the longest suffix of `s` that does not start with whitespace. */
  function TrimLeft(s: string): (r: string)
    ensures |r| <= |s| && r == s[|s| - |r|..]
    ensures r == [] || !IsSpace(r[0])
    ensures AllSpace(s[..|s| - |r|])
  {
    if s != [] && IsSpace(s[0]) then
      var t := s[1..];
      var r := TrimLeft(t);
      var n := |t| - |r|;
      assert s[1 + n..] == t[n..];
      assert s[..1 + n] == [s[0]] + t[..n];
      AllSpaceJoin([s[0]], t[..n]);
      r
    else s
  }

  /** `s.rstrip()`: the longest prefix of `s` that does not end with whitespace. */
  function TrimRight(s: string): (r: string)
    ensures |r| <= |s| && r == s[..|r|]
    ensures r == [] || (r[0] == s[0] && !IsSpace(r[|r| - 1]))
    ensures AllSpace(s[|r|..])
  {
    if s != [] && IsSpace(s[|s| - 1]) then
      var init := s[..|s| - 1];
      var r := TrimRight(init);
      assert init[..|r|] == s[..|r|];
      assert s[|r|..] == init[|r|..] + [s[|s| - 1]];
      AllSpaceJoin(init[|r|..], [s[|s| - 1]]);
      r
    else s
  }

  /** Non-empty, with no whitespace at either end: what `strip()` leaves
      of a string that is not blank. */
  predicate IsTrimmed(s: string) {
    s != [] && !IsSpace(s[0]) && !IsSpace(s[|s| - 1])
  }

  /** `s.strip()`: the text between its leading and its trailing whitespace. */
  function Strip(s: string): (r: string)
    ensures |r| <= |s|
    ensures r == [] <==> AllSpace(s)
    ensures r == [] || IsTrimmed(r)
    ensures exists a :: Flanked(s, a, r)
  {
    BlankStripsToEmpty(s);
    StripShape(s);
    StripSlice(s);
    TrimRight(TrimLeft(s))
  }

  /** `r` sits in `s` at offset `a` with only whitespace before and after it. */
  predicate Flanked(s: string, a: nat, r: string) {
    && a + |r| <= |s| && r == s[a..a + |r|]
    && AllSpace(s[..a]) && AllSpace(s[a + |r|..])
  }

  /** Both trims leave a slice of the text with whitespace only on either side. */
  lemma StripSlice(s: string)
    ensures exists a :: Flanked(s, a, TrimRight(TrimLeft(s)))
  {
    var l := TrimLeft(s);
    var a := |s| - |l|;
    var r := TrimRight(l);
    assert l == s[a..];
    assert r == s[a..a + |r|];
    assert l[|r|..] == s[a + |r|..];
    assert Flanked(s, a, r);
  }

  /** What both trims leave is empty or trimmed. */
  lemma StripShape(s: string)
    ensures var r := TrimRight(TrimLeft(s)); r == [] || IsTrimmed(r)
  {
    var l := TrimLeft(s);
    var r := TrimRight(l);
    if r != [] {
      assert l != [] && r[0] == l[0];
    }
  }

  /** Both trims remove everything exactly when the text is all whitespace. */
  lemma BlankStripsToEmpty(s: string)
    ensures TrimRight(TrimLeft(s)) == [] <==> AllSpace(s)
  {
    var l := TrimLeft(s);
    var lead := s[..|s| - |l|];
    assert s == lead + l;
    if TrimRight(l) == [] {
      assert l == TrimRight(l) + l[0..];
      AllSpaceJoin(lead, l);
    }
    if AllSpace(s) {
      AllSpaceParts(lead, l);
    }
  }

  /** Python's `not s.strip()`: the text is empty or whitespace only
      (Strip's contract shows the two agree). */
  predicate IsBlank(s: string) {
    AllSpace(s)
  }

  /** A trimmed string is its own strip. */
  lemma TrimmedIsFixed(t: string)
    requires IsTrimmed(t)
    ensures Strip(t) == t
  {
    assert TrimLeft(t) == t;
    assert TrimRight(t) == t;
  }

  /** `strip()` is the only trimmed slice flanked by whitespace alone:
      whatever sits between leading and trailing whitespace is the strip. */
  lemma StripIsUnique(s: string, a: nat, t: string)
    requires Flanked(s, a, t) && IsTrimmed(t)
    ensures Strip(s) == t
  {
    FlankedNotBlank(s, a, t);
    var r := Strip(s);
    var b :| Flanked(s, b, r);
    FlankStart(s, a, t, b, r);
    FlankStart(s, b, r, a, t);
    FlankEnd(s, a, t, r);
    FlankEnd(s, a, r, t);
  }

  /** A text holding a trimmed slice is not blank. */
  lemma FlankedNotBlank(s: string, a: nat, t: string)
    requires Flanked(s, a, t) && IsTrimmed(t)
    ensures !AllSpace(s)
  {
    assert s[a] == t[0];
  }

  /** A flanked slice starts at the first non-whitespace character. */
  lemma FlankStart(s: string, a: nat, t: string, b: nat, r: string)
    requires Flanked(s, a, t) && IsTrimmed(t) && Flanked(s, b, r)
    ensures a >= b
  {
  }

  /** A trimmed slice reaches at least as far as any other flanked slice
      at the same offset, so two of them coincide. */
  lemma FlankEnd(s: string, a: nat, t: string, r: string)
    requires Flanked(s, a, t) && IsTrimmed(t) && Flanked(s, a, r)
    ensures |t| <= |r|
    ensures |t| == |r| ==> t == r
  {
  }

  /** Stripping a stripped string changes nothing. */
  lemma StripIdempotent(s: string)
    ensures Strip(Strip(s)) == Strip(s)
  {
    if Strip(s) != [] {
      TrimmedIsFixed(Strip(s));
    }
  }

  /** `s.split('\n')`: the pieces between newlines; always at least one
      piece, and "" yields [""]. */
  function SplitLines(s: string): (r: seq<string>)
    ensures |r| >= 1
    ensures forall k :: 0 <= k < |r| ==> '\n' !in r[k]
    ensures JoinLines(r) == s
  {
    if s == [] then [""]
    else
      var rest := SplitLines(s[1..]);
      if s[0] == '\n' then [""] + rest
      else [[s[0]] + rest[0]] + rest[1..]
  }

  /** `'\n'.join(lines)`. */
  function JoinLines(lines: seq<string>): string
    requires |lines| >= 1
  {
    if |lines| == 1 then lines[0] else lines[0] + "\n" + JoinLines(lines[1..])
  }

  /** Splitting a newline-joined list gives the list back: `split` and
      `join` are inverse on lists whose pieces hold no newline. */
  lemma {:induction false} SplitJoin(lines: seq<string>)
    requires |lines| >= 1
    requires forall k :: 0 <= k < |lines| ==> '\n' !in lines[k]
    ensures SplitLines(JoinLines(lines)) == lines
  {
    if |lines| == 1 {
      SplitNoNewline(lines[0]);
    } else {
      SplitJoin(lines[1..]);
      SplitPrefix(lines[0], JoinLines(lines[1..]));
    }
  }

  /** A text without newline is a single line. */
  lemma {:induction false} SplitNoNewline(s: string)
    requires '\n' !in s
    ensures SplitLines(s) == [s]
  {
    if s != [] {
      SplitNoNewline(s[1..]);
    }
  }

  /** A first line `a` followed by a newline contributes exactly the piece `a`. */
  lemma {:induction false} SplitPrefix(a: string, b: string)
    requires '\n' !in a
    ensures SplitLines(a + "\n" + b) == [a] + SplitLines(b)
  {
    if a == [] {
      assert a + "\n" + b == "\n" + b;
      assert ("\n" + b)[1..] == b;
    } else {
      assert (a + "\n" + b)[1..] == a[1..] + "\n" + b;
      SplitPrefix(a[1..], b);
      assert [a[0]] + a[1..] == a;
    }
  }
}

=== FILE: translation.dfy ===
/** The resumable translation engine (modules/translate.py,
    `process_and_translate`). The language model and the sentence splitter
    are oracles: functions from text to a result or a failure. The source
    and target languages are fixed inside the translation oracle. Every
    write of the state file is modelled as succeeding and replacing the
    file's value. */
module Translation {
  import opened Outcomes
  import opened PyText
  import Extraction

  const SPLIT: string := "split"
  const WHOLE: string := "whole"

  /** Pages longer than this are cut before classification. */
  const CLASSIFIER_LIMIT: nat := 2000
  const TRUNCATION_MARKER: string := "... (truncated)"

  /** One stored translation unit `{original, translated, content_type}`.
      The two optional fields may be absent in a file the assembler reads;
      this engine always writes them. */
  datatype Unit = Unit(original: string, translated: Option<string>, contentType: Option<string>)

  /** The content of `translated_sentences.json`. */
  datatype TranslationState = TranslationState(sentences: seq<Unit>, lastProcessedPage: int)

  /** The state used when no state file exists. */
  const InitialState := TranslationState([], -1)

  /** A value as Python sees it, to model the `==` between the classifier's
      answer and the labels: a bool never equals a string. */
  datatype PyValue = PyBool(b: bool) | PyStr(s: string)

  datatype BackendError = BackendError(message: string)

  /** The external services, as functions from their input text. */
  datatype Oracles = Oracles(
    classify: string -> Result<PyValue, BackendError>,    // the value `llm_text_classification` returns for a page
    segment: string -> Result<seq<string>, BackendError>, // the sentence texts the splitter finds
    translate: string -> Result<string, BackendError>)    // the language model's translation

  /** Why a run stopped before its last page. */
  datatype RunError =
    | SourceMissing                          // the OCR file does not exist
    | SourceUnreadable                       // the OCR file cannot be parsed
    | CheckpointUnreadable                   // the state file cannot be parsed
    | PageIndexError                         // `pages[page_index]` is out of range
    | ClassificationFailed(e: BackendError)  // raised outside the guarded block
    | SegmentationFailed(e: BackendError)
    | TranslationFailed(e: BackendError)

  /** Where a run ended. `PageFailed` carries the page being processed. */
  datatype Status = Completed | NothingToDo | LoadFailed(error: RunError) | PageFailed(page: int, error: RunError)

  /** The state file after the run, and how the run ended. */
  datatype RunResult = RunResult(file: JsonFile<TranslationState>, status: Status)

  // ---------------------------------------------------------------- adapters

  /** The text handed to the classifier: pages over the limit are cut to
      their first 2000 characters and marked as truncated. */
  function ClassifierInput(text: string): (r: string)
    ensures |r| <= CLASSIFIER_LIMIT + |TRUNCATION_MARKER|
    ensures |text| <= CLASSIFIER_LIMIT ==> r == text
    ensures |text| > CLASSIFIER_LIMIT ==>
              |r| == CLASSIFIER_LIMIT + |TRUNCATION_MARKER|
              && r[..CLASSIFIER_LIMIT] == text[..CLASSIFIER_LIMIT] && r[CLASSIFIER_LIMIT..] == TRUNCATION_MARKER
  {
    if |text| <= CLASSIFIER_LIMIT then text else text[..CLASSIFIER_LIMIT] + TRUNCATION_MARKER
  }

  /** ASCII lower-casing (`str.lower()` on the model's one-word answer). */
  function Lower(s: string): (r: string)
    ensures |r| == |s|
  {
    if s == [] then []
    else
      var c := s[0];
      var low := if 'A' <= c <= 'Z' then (c as int + 32) as char else c;
      [low] + Lower(s[1..])
  }

  /** `llm_text_classification` as shipped: it asks the model about the
      (truncated) page and returns whether the normalised answer is
      "split" — a bool. `backend` maps the text sent to the model's reply. */
  function ShippedClassify(backend: string -> Result<string, BackendError>): (r: string -> Result<PyValue, BackendError>)
    ensures forall text :: r(text).Failure? <==> backend(ClassifierInput(text)).Failure?
    ensures forall text :: r(text).Success? ==> r(text).value.PyBool?
    ensures forall t1, t2 :: ClassifierInput(t1) == ClassifierInput(t2) ==> r(t1) == r(t2)
  {
    text =>
      match backend(ClassifierInput(text))
      case Success(reply) => Success(PyBool(Lower(Strip(reply)) == SPLIT))
      case Failure(e) => Failure(e)
  }

  /** What one sentence of the splitter contributes: itself stripped,
      or nothing when it is blank. */
  function Kept(s: string): (r: seq<string>)
    ensures |r| <= 1
    ensures r == [] <==> IsBlank(s)
    ensures r != [] ==> IsTrimmed(r[0]) && r[0] == Strip(s)
  {
    if Strip(s) != [] then [Strip(s)] else []
  }

  /** Every sentence is non-empty and has no whitespace at either end. */
  predicate AllTrimmed(ss: seq<string>) {
    forall k :: 0 <= k < |ss| ==> IsTrimmed(ss[k])
  }

  /** `extract_sentences`: the splitter's sentences, stripped, with blank
      ones dropped. */
  function ExtractSentences(raw: seq<string>): (r: seq<string>)
    ensures |r| <= |raw|
    ensures AllTrimmed(r)
  {
    KeptSentences(raw);
    FlatMap(raw, Kept)
  }

  lemma {:induction false} KeptSentences(raw: seq<string>)
    ensures |FlatMap(raw, Kept)| <= |raw|
    ensures AllTrimmed(FlatMap(raw, Kept))
  {
    if raw != [] {
      KeptSentences(raw[1..]);
      var head := Kept(raw[0]);
      assert AllTrimmed(head);
      AllTrimmedJoin(head, FlatMap(raw[1..], Kept));
    }
  }

  lemma AllTrimmedJoin(a: seq<string>, b: seq<string>)
    requires AllTrimmed(a) && AllTrimmed(b)
    ensures AllTrimmed(a + b)
  {
    var ab := a + b;
    forall k | 0 <= k < |ab|
      ensures IsTrimmed(ab[k])
    {
      if k >= |a| { assert ab[k] == b[k - |a|]; }
    }
  }

  // -------------------------------------------------------------- one page

  /** Which arm of the `if text_type == "split" / elif == "whole"` runs. */
  datatype Branch = SplitBranch | WholeBranch | NoBranch

  function BranchOf(v: PyValue): (r: Branch)
    ensures r == SplitBranch <==> v == PyStr(SPLIT)
    ensures r == WholeBranch <==> v == PyStr(WHOLE)
    ensures v.PyBool? ==> r == NoBranch
  {
    if v == PyStr(SPLIT) then SplitBranch
    else if v == PyStr(WHOLE) then WholeBranch
    else NoBranch
  }

  /** What the guarded block did: the units it appended before it finished
      or raised, and what it raised, if anything. */
  datatype Attempt = Attempt(units: seq<Unit>, error: Option<RunError>)

  /** The loop over sentences: translate each one and append its unit; the
      first failing translation stops the loop, keeping the units before it. */
  function TranslateEach(sentences: seq<string>, translate: string -> Result<string, BackendError>): (a: Attempt)
    ensures |a.units| <= |sentences|
    ensures a.error.None? ==> |a.units| == |sentences|
    ensures a.error.Some? ==> |a.units| < |sentences| && translate(sentences[|a.units|]).Failure?
                              && a.error == Some(TranslationFailed(translate(sentences[|a.units|]).error))
    ensures forall k :: 0 <= k < |a.units| ==>
              && a.units[k].original == sentences[k]
              && a.units[k].contentType == Some(SPLIT)
              && translate(sentences[k]).Success?
              && a.units[k].translated == Some(translate(sentences[k]).value)
  {
    if sentences == [] then Attempt([], None)
    else
      match translate(sentences[0])
      case Failure(e) => Attempt([], Some(TranslationFailed(e)))
      case Success(t) =>
        var rest := TranslateEach(sentences[1..], translate);
        Attempt([Unit(sentences[0], Some(t), Some(SPLIT))] + rest.units, rest.error)
  }

  /** The guarded block for a non-blank page whose classification selected `branch`. */
  function TryPage(text: string, branch: Branch, o: Oracles): (a: Attempt)
    ensures branch == NoBranch ==> a == Attempt([], None)
    ensures branch == WholeBranch ==> |a.units| <= 1 && (a.error.None? <==> |a.units| == 1)
    ensures branch == WholeBranch ==> (a.error.None? <==> o.translate(text).Success?)
    ensures branch == WholeBranch && o.translate(text).Success? ==>
              a.units == [Unit(text, Some(o.translate(text).value), Some(WHOLE))]
    ensures branch == WholeBranch && o.translate(text).Failure? ==>
              a.error == Some(TranslationFailed(o.translate(text).error))
    ensures branch == SplitBranch && o.segment(text).Failure? ==>
              a == Attempt([], Some(SegmentationFailed(o.segment(text).error)))
    ensures branch == SplitBranch && o.segment(text).Success? ==>
              a == TranslateEach(ExtractSentences(o.segment(text).value), o.translate)
    ensures forall k :: 0 <= k < |a.units| ==> a.units[k].contentType == Some(if branch == SplitBranch then SPLIT else WHOLE)
  {
    match branch
    case SplitBranch =>
      (match o.segment(text)
       case Failure(e) => Attempt([], Some(SegmentationFailed(e)))
       case Success(raw) => TranslateEach(ExtractSentences(raw), o.translate))
    case WholeBranch =>
      (match o.translate(text)
       case Failure(e) => Attempt([], Some(TranslationFailed(e)))
       case Success(t) => Attempt([Unit(text, Some(t), Some(WHOLE))], None))
    case NoBranch => Attempt([], None)
  }

  /** The effect of one page on the in-memory state: it is committed (and
      the state written), or it fails, possibly after writing a rolled-back
      state. */
  datatype Step = Commit(next: TranslationState) | Abort(written: Option<TranslationState>, error: RunError)

  /** One iteration of the page loop for page `i` with text `text`. */
  function ProcessPage(text: string, i: int, st: TranslationState, o: Oracles): (r: Step)
    ensures IsBlank(text) ==> r == Commit(st.(lastProcessedPage := i))
    ensures r.Commit? ==> r.next.lastProcessedPage == i
                          && st.sentences <= r.next.sentences
    ensures r.Abort? && r.written.Some? ==>
              && r.written.value.lastProcessedPage == i - 1
              && st.sentences <= r.written.value.sentences
    ensures (r.Abort? && r.written.None?) <==> !IsBlank(text) && o.classify(text).Failure?
  {
    if IsBlank(text) then Commit(st.(lastProcessedPage := i))
    else
      match o.classify(text)
      case Failure(e) => Abort(None, ClassificationFailed(e))
      case Success(v) =>
        var a := TryPage(text, BranchOf(v), o);
        var appended := st.(sentences := st.sentences + a.units);
        match a.error
        case None => Commit(appended.(lastProcessedPage := i))
        case Some(e) => Abort(Some(appended.(lastProcessedPage := i - 1)), e)
  }

  // ---------------------------------------------------------------- a run

  /** `pages[i]` with Python's indexing: negative indices count from the end. */
  function PageAt(pages: seq<Extraction.PageRecord>, i: int): (r: Option<Extraction.PageRecord>)
    ensures 0 <= i < |pages| ==> r == Some(pages[i])
    ensures -|pages| <= i < 0 ==> r == Some(pages[|pages| + i])
    ensures r.None? <==> i < -|pages| || |pages| <= i
  {
    if 0 <= i < |pages| then Some(pages[i])
    else if -|pages| <= i < 0 then Some(pages[|pages| + i])
    else None
  }

  /** The sentences a readable state file holds; none for a missing one. */
  function Sentences(file: JsonFile<TranslationState>): seq<Unit> {
    if file.Holds? then file.content.sentences else []
  }

  /** The page loop from page `i` on. `st` is the in-memory state and
      `file` the state file as last written. */
  function Loop(pages: seq<Extraction.PageRecord>, i: int, st: TranslationState, file: JsonFile<TranslationState>, o: Oracles)
    : (r: RunResult)
    decreases |pages| - i
    ensures r.status.Completed? || r.status.PageFailed?
    ensures r.status.PageFailed? ==> i <= r.status.page < |pages|
    ensures r.file == file || (r.file.Holds? && st.sentences <= r.file.content.sentences
                               && i - 1 <= r.file.content.lastProcessedPage <= |pages| - 1)
  {
    if i >= |pages| then RunResult(file, Completed)
    else
      match PageAt(pages, i)
      case None => RunResult(file, PageFailed(i, PageIndexError))
      case Some(page) =>
        match ProcessPage(page.markdown, i, st, o)
        case Commit(next) =>
          Loop(pages, i + 1, next, Holds(next), o)
        case Abort(written, e) =>
          RunResult(if written.Some? then Holds(written.value) else file, PageFailed(i, e))
  }

  /** The state a run starts from: the file's, or the initial state when
      there is no file; `None` when the file cannot be parsed. */
  function LoadCheckpoint(file: JsonFile<TranslationState>): (r: Option<TranslationState>)
    ensures r.None? <==> file.Unreadable?
    ensures file.Missing? ==> r == Some(InitialState)
    ensures file.Holds? ==> r == Some(file.content)
  {
    match file
    case Missing => Some(InitialState)
    case Unreadable => None
    case Holds(st) => Some(st)
  }

  /** `process_and_translate(json_file_path, translated_json_file_path, ...)`:
      `source` is the OCR file and `file` the state file. */
  function ProcessAndTranslate(source: JsonFile<Extraction.ExtractionState>, file: JsonFile<TranslationState>, o: Oracles)
    : (r: RunResult)
    ensures r.status.LoadFailed? || r.status.NothingToDo? ==> r.file == file
  {
    match source
    case Missing => RunResult(file, LoadFailed(SourceMissing))
    case Unreadable => RunResult(file, LoadFailed(SourceUnreadable))
    case Holds(src) =>
      match LoadCheckpoint(file)
      case None => RunResult(file, LoadFailed(CheckpointUnreadable))
      case Some(st) =>
        var start := st.lastProcessedPage + 1;
        if start >= |src.pages| then RunResult(file, NothingToDo)
        else Loop(src.pages, start, st, file, o)
  }
}

=== FILE: translation_properties.dfy ===
/** What runs of the translation engine guarantee: where a run resumes,
    that completed runs are idempotent, what each kind of page appends,
    what a rollback leaves behind, and what the shipped classifier does to
    every page. */
module TranslationProperties {
  import opened Outcomes
  import opened PyText
  import opened Extraction
  import opened Translation

  // ------------------------------------------------------------ checkpoints

  /** The page a run over this state file starts at. */
  function ResumePoint(file: JsonFile<TranslationState>): int
    requires !file.Unreadable?
  {
    LoadCheckpoint(file).value.lastProcessedPage + 1
  }

  /** The loop's invariant: the in-memory state is what the file holds (or
      the initial state without a file) and its checkpoint is the page
      before `i`. */
  predicate Synced(st: TranslationState, file: JsonFile<TranslationState>, i: int) {
    st.lastProcessedPage == i - 1 && LoadCheckpoint(file) == Some(st)
  }

  /** The page loop keeps the file's checkpoint pointing at the page to
      resume from: past the last page when the loop completes, at the
      failing page when it stops; and it only ever appends units. */
  lemma {:induction false} LoopCheckpoint(pages: seq<PageRecord>, i: int, st: TranslationState,
                                          file: JsonFile<TranslationState>, o: Oracles)
    requires Synced(st, file, i) && i <= |pages|
    ensures var r := Loop(pages, i, st, file, o);
            && !r.file.Unreadable?
            && (r.status.Completed? ==> ResumePoint(r.file) == |pages|)
            && (r.status.PageFailed? ==> ResumePoint(r.file) == r.status.page)
            && Sentences(file) <= Sentences(r.file)
    decreases |pages| - i
  {
    var r := Loop(pages, i, st, file, o);
    if i < |pages| && PageAt(pages, i).None? {
      assert r == RunResult(file, PageFailed(i, PageIndexError));
    } else if i < |pages| {
      var page := PageAt(pages, i).value;
      var step := ProcessPage(page.markdown, i, st, o);
      if step.Commit? {
        assert r == Loop(pages, i + 1, step.next, Holds(step.next), o);
        LoopCheckpoint(pages, i + 1, step.next, Holds(step.next), o);
      } else if step.written.Some? {
        assert r == RunResult(Holds(step.written.value), PageFailed(i, step.error));
      } else {
        assert r == RunResult(file, PageFailed(i, step.error));
      }
    }
  }

  // ------------------------------------------------------- every page once

  /** The units page `text` leaves in the state: none for a blank page or a
      failed classification, otherwise those of its guarded block (all of
      them when it finished, the ones before the failure when it raised). */
  function PageUnits(text: string, o: Oracles): seq<Unit> {
    if IsBlank(text) then []
    else match o.classify(text)
      case Failure(_) => []
      case Success(v) => TryPage(text, BranchOf(v), o).units
  }

  /** The units of each page, in page order. */
  function PerPage(pages: seq<PageRecord>, o: Oracles): seq<seq<Unit>> {
    seq(|pages|, k requires 0 <= k < |pages| => PageUnits(pages[k].markdown, o))
  }

  /** The units entries `i .. j - 1` contribute, in order, each entry once. */
  function Concat(us: seq<seq<Unit>>, i: nat, j: nat): seq<Unit>
    requires i <= j <= |us|
    decreases j - i
  {
    if i == j then [] else us[i] + Concat(us, i + 1, j)
  }

  /** What one step of the loop does to the units is what `PageUnits` says. */
  lemma StepUnits(text: string, i: int, st: TranslationState, o: Oracles)
    ensures var r := ProcessPage(text, i, st, o);
            && (r.Commit? ==> r.next.sentences == st.sentences + PageUnits(text, o))
            && (r.Abort? && r.written.Some? ==> r.written.value.sentences == st.sentences + PageUnits(text, o))
            && (r.Abort? && r.written.None? ==> PageUnits(text, o) == [])
  {
  }

  /** One turn of the page loop at an in-range page. */
  lemma LoopStep(pages: seq<PageRecord>, i: nat, st: TranslationState, file: JsonFile<TranslationState>, o: Oracles)
    requires i < |pages|
    ensures var step := ProcessPage(pages[i].markdown, i, st, o);
            && (step.Commit? ==> Loop(pages, i, st, file, o) == Loop(pages, i + 1, step.next, Holds(step.next), o))
            && (step.Abort? ==> Loop(pages, i, st, file, o)
                                == RunResult(if step.written.Some? then Holds(step.written.value) else file, PageFailed(i, step.error)))
  {
    assert PageAt(pages, i) == Some(pages[i]);
  }

  /** Run result `r` of a loop started at page `i` over stored units `base`,
      where page `k` contributes `us[k]`, covers the pages once each and in
      order: on completion the file holds `base` followed by the units of
      every page from `i`, and on a failure at page `q` those of pages
      `i .. q`, the last being what the rollback kept of page `q`. */
  predicate Covers(us: seq<seq<Unit>>, i: nat, base: seq<Unit>, r: RunResult)
    requires i <= |us|
  {
    && (r.status.Completed? ==> Sentences(r.file) == base + Concat(us, i, |us|))
    && (r.status.PageFailed? ==>
          && i <= r.status.page < |us|
          && Sentences(r.file) == base + Concat(us, i, r.status.page + 1))
  }

  /** The page loop processes every page from `i` on, once each and in page
      order. */
  lemma {:induction false} LoopVisitsEveryPage(pages: seq<PageRecord>, i: nat, st: TranslationState,
                                               file: JsonFile<TranslationState>, o: Oracles)
    requires Synced(st, file, i) && i <= |pages|
    ensures Covers(PerPage(pages, o), i, st.sentences, Loop(pages, i, st, file, o))
    decreases |pages| - i
  {
    if i < |pages| {
      var us := PerPage(pages, o);
      var text := pages[i].markdown;
      var step := ProcessPage(text, i, st, o);
      StepUnits(text, i, st, o);
      LoopStep(pages, i, st, file, o);
      assert us[i] == PageUnits(text, o);
      if step.Commit? {
        var next := step.next;
        LoopVisitsEveryPage(pages, i + 1, next, Holds(next), o);
        CommitExtends(us, i, st.sentences, next.sentences, Loop(pages, i + 1, next, Holds(next), o));
      } else {
        AbortCovers(us, i, st.sentences, file, step.written, step.error);
      }
    }
  }

  /** A committed page `i` followed by a run from `i + 1` that covers the
      later pages covers the pages from `i`. */
  lemma CommitExtends(us: seq<seq<Unit>>, i: nat, base: seq<Unit>, next: seq<Unit>, r: RunResult)
    requires i < |us| && next == base + us[i]
    ensures Covers(us, i + 1, next, r) ==> Covers(us, i, base, r)
  {
    if r.status.Completed? {
      AppendAssoc(base, us[i], Concat(us, i + 1, |us|));
    } else if r.status.PageFailed? && i + 1 <= r.status.page < |us| {
      AppendAssoc(base, us[i], Concat(us, i + 1, r.status.page + 1));
    }
  }

  /** A page `i` that raised leaves what its rollback wrote, or the file
      untouched when nothing was written: either way the units of page `i`
      after those the loop started with. */
  lemma AbortCovers(us: seq<seq<Unit>>, i: nat, base: seq<Unit>, file: JsonFile<TranslationState>,
                    written: Option<TranslationState>, e: RunError)
    requires i < |us| && Sentences(file) == base
    requires written.Some? ==> written.value.sentences == base + us[i]
    requires written.None? ==> us[i] == []
    ensures Covers(us, i, base, RunResult(if written.Some? then Holds(written.value) else file, PageFailed(i, e)))
  {
    assert Concat(us, i, i + 1) == us[i];
  }

  /** A whole run: it starts at the checkpoint, does nothing when every
      page is already processed, and otherwise leaves the checkpoint at
      the page count on completion or at the failing page on failure,
      never past the last page; units are only ever appended. */
  lemma RunCheckpoint(src: ExtractionState, file: JsonFile<TranslationState>, o: Oracles)
    requires !file.Unreadable?
    ensures var r := ProcessAndTranslate(Holds(src), file, o);
            && !r.file.Unreadable?
            && (ResumePoint(file) >= |src.pages| ==> r == RunResult(file, NothingToDo))
            && (ResumePoint(file) < |src.pages| ==> r == Loop(src.pages, ResumePoint(file), LoadCheckpoint(file).value, file, o))
            && (r.status.Completed? ==> ResumePoint(r.file) == |src.pages|)
            && (r.status.PageFailed? ==> ResumePoint(file) <= r.status.page == ResumePoint(r.file) < |src.pages|)
            && (r.file != file ==> r.file.content.lastProcessedPage <= |src.pages| - 1)
            && Sentences(file) <= Sentences(r.file)
  {
    var st := LoadCheckpoint(file).value;
    RunStart(src, file, o);
    if ResumePoint(file) < |src.pages| {
      LoopCheckpoint(src.pages, ResumePoint(file), st, file, o);
    }
  }

  /** A whole run from a non-negative checkpoint processes every remaining
      page once, in page order: the stored units grow by exactly those of
      the pages from the resume point up to the last page, or up to and
      including the failing page. */
  lemma RunVisitsEveryPage(src: ExtractionState, file: JsonFile<TranslationState>, o: Oracles)
    requires !file.Unreadable?
    ensures 0 <= ResumePoint(file) <= |src.pages| ==>
              Covers(PerPage(src.pages, o), ResumePoint(file), Sentences(file), ProcessAndTranslate(Holds(src), file, o))
  {
    var st := LoadCheckpoint(file).value;
    var start := ResumePoint(file);
    RunStart(src, file, o);
    if 0 <= start < |src.pages| {
      LoopVisitsEveryPage(src.pages, start, st, file, o);
    }
  }

  /** A run over a readable or missing state file is the page loop from the
      resume point with the loaded state, or the no-op past the last page. */
  lemma RunStart(src: ExtractionState, file: JsonFile<TranslationState>, o: Oracles)
    requires !file.Unreadable?
    ensures Sentences(file) == LoadCheckpoint(file).value.sentences
    ensures Synced(LoadCheckpoint(file).value, file, ResumePoint(file))
    ensures var r := ProcessAndTranslate(Holds(src), file, o);
            && (ResumePoint(file) >= |src.pages| ==> r == RunResult(file, NothingToDo))
            && (ResumePoint(file) < |src.pages| ==> r == Loop(src.pages, ResumePoint(file), LoadCheckpoint(file).value, file, o))
  {
  }

  /** Rerunning after a completed run is the "already processed" no-op,
      whatever the services would now answer. */
  lemma CompletedRunIsIdempotent(src: ExtractionState, file: JsonFile<TranslationState>, o: Oracles, o2: Oracles)
    requires !file.Unreadable?
    requires ProcessAndTranslate(Holds(src), file, o).status.Completed?
    ensures var done := ProcessAndTranslate(Holds(src), file, o).file;
            ProcessAndTranslate(Holds(src), done, o2) == RunResult(done, NothingToDo)
  {
    RunCheckpoint(src, file, o);
  }

  /** After a failure the next run restarts exactly at the failing page:
      no page committed before it is processed again. */
  lemma ResumeStartsAtFailedPage(src: ExtractionState, file: JsonFile<TranslationState>, o: Oracles, o2: Oracles)
    requires !file.Unreadable?
    requires ProcessAndTranslate(Holds(src), file, o).status.PageFailed?
    ensures var r := ProcessAndTranslate(Holds(src), file, o);
            ProcessAndTranslate(Holds(src), r.file, o2)
              == Loop(src.pages, r.status.page, LoadCheckpoint(r.file).value, r.file, o2)
  {
    var r := ProcessAndTranslate(Holds(src), file, o);
    RunCheckpoint(src, file, o);
    RunCheckpoint(src, r.file, o2);
  }

  /** With no state file the run starts from no units at page 0. */
  lemma FreshRunStartsAtFirstPage(src: ExtractionState, o: Oracles)
    ensures |src.pages| == 0 ==> ProcessAndTranslate(Holds(src), Missing, o) == RunResult(Missing, NothingToDo)
    ensures |src.pages| > 0 ==> ProcessAndTranslate(Holds(src), Missing, o) == Loop(src.pages, 0, TranslationState([], -1), Missing, o)
  {
  }

  // ------------------------------------------------------------ one page

  /** The units a split page should append: one per sentence, in order,
      each carrying its own translation. */
  function SplitUnits(sentences: seq<string>, translate: string -> Result<string, BackendError>): seq<Unit>
    requires forall k :: 0 <= k < |sentences| ==> translate(sentences[k]).Success?
  {
    seq(|sentences|, k requires 0 <= k < |sentences| => Unit(sentences[k], Some(translate(sentences[k]).value), Some(SPLIT)))
  }

  /** A page classified "split" whose sentences all translate appends
      exactly one "split" unit per sentence, in sentence order, and is
      committed. */
  lemma SplitPageFidelity(text: string, i: int, st: TranslationState, o: Oracles, raw: seq<string>)
    requires !IsBlank(text)
    requires o.classify(text) == Success(PyStr(SPLIT))
    requires o.segment(text) == Success(raw)
    requires forall k :: 0 <= k < |ExtractSentences(raw)| ==> o.translate(ExtractSentences(raw)[k]).Success?
    ensures ProcessPage(text, i, st, o)
            == Commit(TranslationState(st.sentences + SplitUnits(ExtractSentences(raw), o.translate), i))
  {
    var ss := ExtractSentences(raw);
    var a := TranslateEach(ss, o.translate);
    assert a.error.None?;
    assert a.units == SplitUnits(ss, o.translate);
  }

  /** A page classified "whole" whose translation succeeds appends exactly
      one "whole" unit holding the page text, and is committed. */
  lemma WholePageFidelity(text: string, i: int, st: TranslationState, o: Oracles, t: string)
    requires !IsBlank(text)
    requires o.classify(text) == Success(PyStr(WHOLE))
    requires o.translate(text) == Success(t)
    ensures ProcessPage(text, i, st, o)
            == Commit(TranslationState(st.sentences + [Unit(text, Some(t), Some(WHOLE))], i))
  {
  }

  /** An aborted page that wrote a state failed inside the guarded block
      of a non-blank page, and the state keeps the block's units. */
  lemma AbortedAttempt(text: string, i: int, st: TranslationState, o: Oracles)
    ensures var r := ProcessPage(text, i, st, o);
            r.Abort? && r.written.Some? ==>
              && !IsBlank(text) && o.classify(text).Success?
              && var a := TryPage(text, BranchOf(o.classify(text).value), o);
              && a.error.Some?
              && r.written.value == TranslationState(st.sentences + a.units, i - 1)
  {
  }

  /** Conversely, a non-blank page whose classification succeeds and whose
      guarded block raises is rolled back: the state written keeps the
      block's units with the checkpoint of the page before, and the block's
      error propagates. */
  lemma RaisingAttemptRollsBack(text: string, i: int, st: TranslationState, o: Oracles)
    ensures !IsBlank(text) && o.classify(text).Success? ==>
              var a := TryPage(text, BranchOf(o.classify(text).value), o);
              a.error.Some? ==>
                ProcessPage(text, i, st, o) == Abort(Some(TranslationState(st.sentences + a.units, i - 1)), a.error.value)
  {
  }

  /** A "split" page one of whose extracted sentences fails to translate is
      rolled back: a state is written with the checkpoint of the page
      before, and the translation error propagates. */
  lemma SplitTranslationFailureRollsBack(text: string, i: int, st: TranslationState, o: Oracles, j: nat)
    ensures !IsBlank(text) && o.classify(text) == Success(PyStr(SPLIT)) && o.segment(text).Success? ==>
              var ss := ExtractSentences(o.segment(text).value);
              j < |ss| && o.translate(ss[j]).Failure? ==>
                var r := ProcessPage(text, i, st, o);
                && r.Abort? && r.written.Some? && r.written.value.lastProcessedPage == i - 1
                && r.error.TranslationFailed?
  {
  }

  /** The units of the sentence loop are the split units of the sentences
      it got through. */
  lemma TranslatedUnits(ss: seq<string>, translate: string -> Result<string, BackendError>)
    ensures var a := TranslateEach(ss, translate);
            a.units == SplitUnits(ss[..|a.units|], translate)
  {
    var a := TranslateEach(ss, translate);
    var u := SplitUnits(ss[..|a.units|], translate);
    forall k | 0 <= k < |u|
      ensures u[k] == a.units[k]
    {
    }
  }

  /** `kept` are the units of a split page's sentences translated before the
      first one whose translation failed. */
  predicate PartialSplit(text: string, o: Oracles, kept: seq<Unit>) {
    && o.classify(text) == Success(PyStr(SPLIT))
    && o.segment(text).Success?
    && var ss := ExtractSentences(o.segment(text).value);
    && |kept| < |ss|
    && (forall j :: 0 <= j < |kept| ==> o.translate(ss[j]).Success?)
    && kept == SplitUnits(ss[..|kept|], o.translate)
    && o.translate(ss[|kept|]).Failure?
  }

  /** On a failure inside the guarded block the state written back has the
      checkpoint of the page before, yet keeps the units appended for the
      failing page: exactly the sentences translated before the first
      failing one. A "whole" page or a failed segmentation keeps none. */
  lemma RollbackKeepsPartialUnits(text: string, i: int, st: TranslationState, o: Oracles)
    ensures var r := ProcessPage(text, i, st, o);
            r.Abort? && r.written.Some? ==>
              var w := r.written.value;
              && w.lastProcessedPage == i - 1
              && st.sentences <= w.sentences
              && (|w.sentences| > |st.sentences| ==> PartialSplit(text, o, w.sentences[|st.sentences|..]))
  {
    var r := ProcessPage(text, i, st, o);
    if !(r.Abort? && r.written.Some?) {
      return;
    }
    var w := r.written.value;
    AbortedAttempt(text, i, st, o);
    var v := o.classify(text).value;
    var a := TryPage(text, BranchOf(v), o);
    assert w.sentences[|st.sentences|..] == a.units;
    if |a.units| > 0 {
      assert BranchOf(v) == SplitBranch;
      FailedSplitAttempt(text, o, a);
    }
  }

  /** A split attempt that raised after appending units kept those of the
      sentences before the first failing translation. */
  lemma FailedSplitAttempt(text: string, o: Oracles, a: Attempt)
    requires a == TryPage(text, SplitBranch, o) && |a.units| > 0 && a.error.Some?
    requires o.classify(text) == Success(PyStr(SPLIT))
    ensures PartialSplit(text, o, a.units)
  {
    assert o.segment(text).Success?;
    var ss := ExtractSentences(o.segment(text).value);
    assert a == TranslateEach(ss, o.translate);
    TranslatedUnits(ss, o.translate);
  }

  /** The rollback's flaw: when the failing page is retried and commits,
      the units kept from the failed attempt are appended a second time,
      right after the first copies (given a translator that returns the
      same text for the sentences it already translated). */
  lemma RetriedPageDuplicatesUnits(text: string, i: int, st: TranslationState, o: Oracles,
                                   w: TranslationState, o2: Oracles, again: TranslationState)
    requires ProcessPage(text, i, st, o).Abort? && ProcessPage(text, i, st, o).written == Some(w)
    requires |w.sentences| > |st.sentences|
    requires o2.classify(text) == o.classify(text) && o2.segment(text) == o.segment(text)
    requires forall j :: |st.sentences| <= j < |w.sentences| ==>
               w.sentences[j].translated.Some? && o2.translate(w.sentences[j].original) == Success(w.sentences[j].translated.value)
    requires ProcessPage(text, i, w, o2) == Commit(again)
    ensures TailRepeated(w.sentences, |st.sentences|, again.sentences)
  {
    var ss, a1 := FailedSplitPage(text, i, st, o, w);
    var a2 := RetriedSplitPage(text, i, w, o2, again);
    KeptUnitsAgree(st, w, ss, a1, o.translate, o2.translate);
    AgreeingTranslator(ss, o.translate, o2.translate);
    RepeatedTail(w.sentences, |st.sentences|, a2.units, again.sentences);
  }

  /** A rolled-back page that kept units was a split page whose sentence
      loop appended them. */
  lemma FailedSplitPage(text: string, i: int, st: TranslationState, o: Oracles, w: TranslationState)
    returns (ss: seq<string>, a: Attempt)
    requires ProcessPage(text, i, st, o).Abort? && ProcessPage(text, i, st, o).written == Some(w)
    requires |w.sentences| > |st.sentences|
    ensures !IsBlank(text) && o.classify(text) == Success(PyStr(SPLIT)) && o.segment(text).Success?
    ensures ss == ExtractSentences(o.segment(text).value)
    ensures a == TranslateEach(ss, o.translate) && w.sentences == st.sentences + a.units
  {
    AbortedAttempt(text, i, st, o);
    var v := o.classify(text).value;
    a := TryPage(text, BranchOf(v), o);
    assert BranchOf(v) == SplitBranch;
    ss := ExtractSentences(o.segment(text).value);
  }

  /** Where the kept units say the second translator returns their
      translations, it agrees with the first one on their sentences. */
  lemma KeptUnitsAgree(st: TranslationState, w: TranslationState, ss: seq<string>, a: Attempt,
                       t1: string -> Result<string, BackendError>, t2: string -> Result<string, BackendError>)
    requires a == TranslateEach(ss, t1) && w.sentences == st.sentences + a.units
    requires forall j :: |st.sentences| <= j < |w.sentences| ==>
               w.sentences[j].translated.Some? && t2(w.sentences[j].original) == Success(w.sentences[j].translated.value)
    ensures forall j :: 0 <= j < |a.units| ==> t2(ss[j]) == t1(ss[j])
  {
    forall j | 0 <= j < |a.units|
      ensures t2(ss[j]) == t1(ss[j])
    {
      assert a.units[j] == w.sentences[|st.sentences| + j];
    }
  }

  /** A split page that commits appends the units of its sentence loop. */
  lemma RetriedSplitPage(text: string, i: int, st: TranslationState, o: Oracles, next: TranslationState)
    returns (a: Attempt)
    requires !IsBlank(text)
    requires o.classify(text) == Success(PyStr(SPLIT)) && o.segment(text).Success?
    requires ProcessPage(text, i, st, o) == Commit(next)
    ensures a == TranslateEach(ExtractSentences(o.segment(text).value), o.translate)
    ensures a.error.None? && next.sentences == st.sentences + a.units
  {
    CommittedAttempt(text, i, st, o, next);
    a := TryPage(text, SplitBranch, o);
  }

  /** A translator that agrees with another on the sentences that one got
      through, and fails on none, starts with the same units. */
  lemma {:induction false} AgreeingTranslator(ss: seq<string>, t1: string -> Result<string, BackendError>,
                                              t2: string -> Result<string, BackendError>)
    requires forall j :: 0 <= j < |TranslateEach(ss, t1).units| ==> t2(ss[j]) == t1(ss[j])
    requires TranslateEach(ss, t2).error.None?
    ensures |TranslateEach(ss, t1).units| <= |TranslateEach(ss, t2).units|
    ensures TranslateEach(ss, t2).units[..|TranslateEach(ss, t1).units|] == TranslateEach(ss, t1).units
  {
    if ss != [] && t1(ss[0]).Success? {
      var a1 := TranslateEach(ss, t1);
      var r1 := TranslateEach(ss[1..], t1);
      assert a1.units == [a1.units[0]] + r1.units;
      forall j | 0 <= j < |r1.units|
        ensures t2(ss[1..][j]) == t1(ss[1..][j])
      {
        assert ss[1..][j] == ss[j + 1];
      }
      AgreeingTranslator(ss[1..], t1, t2);
    }
  }

  /** `after` continues `w` with a second copy of `w`'s tail from `m` on. */
  predicate TailRepeated<T(==)>(w: seq<T>, m: nat, after: seq<T>) {
    && m <= |w|
    && |w| + (|w| - m) <= |after|
    && after[..|w|] == w
    && after[|w|..|w| + (|w| - m)] == w[m..]
  }

  /** Appending, after `w`, units that start with `w`'s tail from `m` on
      repeats that tail. */
  lemma RepeatedTail<T>(w: seq<T>, m: nat, more: seq<T>, after: seq<T>)
    requires m <= |w| && after == w + more
    requires |w| - m <= |more| && more[..|w| - m] == w[m..]
    ensures TailRepeated(w, m, after)
  {
    assert after[|w|..|w| + (|w| - m)] == more[..|w| - m];
  }

  /** A committed non-blank page was classified, and its guarded block
      finished, appending its units. */
  lemma CommittedAttempt(text: string, i: int, st: TranslationState, o: Oracles, next: TranslationState)
    requires !IsBlank(text)
    requires ProcessPage(text, i, st, o) == Commit(next)
    ensures o.classify(text).Success?
    ensures var a := TryPage(text, BranchOf(o.classify(text).value), o);
            && a.error.None?
            && next == TranslationState(st.sentences + a.units, i)
  {
  }

  // ------------------------------------------------------ shipped classifier

  /** The classifier answers with a bool whenever it answers. */
  ghost predicate ReturnsBool(classify: string -> Result<PyValue, BackendError>) {
    forall t :: classify(t).Success? ==> classify(t).value.PyBool?
  }

  /** `llm_text_classification` returns a bool, so neither label ever
      matches: every answer selects no branch. */
  lemma ShippedClassifierReturnsBool(backend: string -> Result<string, BackendError>)
    ensures ReturnsBool(ShippedClassify(backend))
    ensures forall t :: ShippedClassify(backend)(t).Success? ==> BranchOf(ShippedClassify(backend)(t).value) == NoBranch
  {
  }

  /** With a bool-returning classifier a page is either committed with no
      unit or fails classification without writing anything; no service
      but the classifier is called. */
  lemma BoolClassifierPage(text: string, i: int, st: TranslationState, o: Oracles)
    requires ReturnsBool(o.classify)
    ensures var r := ProcessPage(text, i, st, o);
            || r == Commit(st.(lastProcessedPage := i))
            || (r.Abort? && r.written.None? && r.error.ClassificationFailed?)
  {
  }

  /** Hence a run of the shipped engine never adds a unit: it only moves
      the checkpoint. */
  lemma {:induction false} BoolClassifierLoop(pages: seq<PageRecord>, i: int, st: TranslationState,
                                              file: JsonFile<TranslationState>, o: Oracles)
    requires ReturnsBool(o.classify)
    requires Synced(st, file, i)
    ensures Sentences(Loop(pages, i, st, file, o).file) == Sentences(file)
    decreases |pages| - i
  {
    if i < |pages| {
      match PageAt(pages, i)
      case None =>
      case Some(page) =>
        BoolClassifierPage(page.markdown, i, st, o);
        match ProcessPage(page.markdown, i, st, o)
        case Commit(next) =>
          BoolClassifierLoop(pages, i + 1, next, Holds(next), o);
        case Abort(_, _) =>
    }
  }

  /** The shipped pipeline end to end: whatever the language model answers,
      the stored units never change. */
  lemma ShippedRunAppendsNothing(src: ExtractionState, file: JsonFile<TranslationState>,
                                 backend: string -> Result<string, BackendError>, o: Oracles)
    requires !file.Unreadable?
    requires forall t :: o.classify(t) == ShippedClassify(backend)(t)
    ensures Sentences(ProcessAndTranslate(Holds(src), file, o).file) == Sentences(file)
  {
    ShippedClassifierReturnsBool(backend);
    var st := LoadCheckpoint(file).value;
    if st.lastProcessedPage + 1 < |src.pages| {
      BoolClassifierLoop(src.pages, st.lastProcessedPage + 1, st, file, o);
    }
  }

  // ------------------------------------------------------------ adapters

  /** The classifier sees at most the first 2000 characters of a page: two
      long pages that agree there get the same classification. */
  lemma ClassifierSeesOnlyPrefix(a: string, b: string)
    requires |a| > CLASSIFIER_LIMIT && |b| > CLASSIFIER_LIMIT
    requires a[..CLASSIFIER_LIMIT] == b[..CLASSIFIER_LIMIT]
    ensures ClassifierInput(a) == ClassifierInput(b)
  {
  }

  /** Sentence extraction distributes over concatenation, so the sentence
      order of the splitter is kept. */
  lemma ExtractSentencesAppend(a: seq<string>, b: seq<string>)
    ensures ExtractSentences(a + b) == ExtractSentences(a) + ExtractSentences(b)
  {
    FlatMapAppend(a, b, Kept);
  }

  /** Sentences that are already trimmed and non-empty come through unchanged. */
  lemma {:induction false} ExtractSentencesKeepsCleanInput(raw: seq<string>)
    requires AllTrimmed(raw)
    ensures ExtractSentences(raw) == raw
  {
    if raw != [] {
      TrimmedIsFixed(raw[0]);
      ExtractSentencesKeepsCleanInput(raw[1..]);
    }
  }
}
